=== FILE: README.md ===
# passport-passwordless, modelled in Dafny

This project models the decision logic of `passport-passwordless`. That package is a passport
authentication strategy. It sends a one-time token to a user through a delivery channel and
later accepts the token, together with the user id, as a login. The project has three parts.

- **URL helper** (`lib/lib.js`). `splitUrl` runs one unanchored regular expression with `exec`.
  `getBaseUrl` rebuilds `scheme://host[:port]` from the match.
  - The regular expression is modelled twice and the two are proved to agree:
    - `Url.Parse` is a deterministic left-to-right scan;
    - `Url.IsRegexMatch` is a declarative statement of the leftmost, greedy match.
  - Because the match is unique, every property of `getBaseUrl` is a property of the regular
    expression itself.
- **E-mail delivery** (`lib/deliveries.js`). This part covers the delivery registry and the
  function its `emailjs` factory returns. That function builds the template context, composes
  the message record and turns composition errors into a single callback.
- **Strategy** (`lib/strategy.js`).
  - `checkOptions` validates and normalises the configuration in order: store, then delivery,
    then access.
  - The constructor and `initPasswordless` include the choice of token generator.
  - `authenticate` merges the per-call options and sorts the request into one of three
    branches: verify a token, request a token, or reject.
  - `verifyToken` and `useDelivery` map each collaborator's answer onto exactly one passport
    outcome (`success`, `fail`, `error`, `pass`) or onto an exception.

Collaborators outside these files are parameters of the model:

- the store loader;
- the token store's answer;
- the application's `verify` and `access` callbacks, where `verify` may be missing;
- the template engine;
- the SMTP transport;
- the passwordless library's token request.

`TokenStoreContract` is a small reference token store. `verifyToken` relies on its contract.
It is used to show that a token is single-use unless reuse is allowed.

Files:

- `wrappers.dfy`: `Option` and `Result`.
- `js_values.dfy`: JavaScript values, truthiness, string conversion of `undefined`, the request.
- `url.dfy`: `Url`.
- `url_properties.dfy`: `UrlProperties` and `UrlExamples`.
- `deliveries.dfy`: `Deliveries`.
- `strategy.dfy`: `Strategy`.
- `token_store.dfy`: `TokenStoreContract`.

Behaviour kept as the code has it:

- The store-error branch of `verifyToken` refers to an unbound `err`, so it throws a
  ReferenceError (`UnboundVariable("err")`) instead of reporting an error.
- The rejection message reads `delivery.type` from the options of the current call, not from
  the merged options. An absent call-options object, or an absent or null delivery in it,
  makes the call throw.
- Per-call options are merged into the strategy's options permanently.
- Passport runs each request on a fresh object whose prototype is the strategy. The instance a dynamic-mode call creates is assigned to that object, so it is gone after the call. A strategy built in dynamic mode never holds one between calls.
- The constructor stores `verify` without checking it. Without a verify function, a valid token and uid throw a TypeError after the token store has answered.
- A missing `config.msg` makes the first template read throw inside the `try`, so the delivery reports it through its callback with the usual prefix.
- When `msg.from` is truthy, the sender is rendered from the `msg.to` template.
- Without a `Referer` header, the template context's `hostName` is `undefined://undefined`.
- Without a recognised scheme, `getBaseUrl` begins with the literal text `undefined://`.

## Model

| member | source | states |
|---|---|---|
| Url.RunEnd | lib/lib.js:8 | A starred character class consumes the longest run of matching characters from its starting point. |
| Url.LeadingScheme | lib/lib.js:8 | The scheme group is taken exactly when the input starts with a word of the form `[fh]t?tps?` directly followed by `://`. The match is case-sensitive, and when no such word fits, the group is absent. |
| Url.ParseIsRegexMatch | lib/lib.js:8-9 | The scan computes a match at index 0 that meets the regular expression group by group. |
| Url.ParseUnique | lib/lib.js:8-9 | Any match the regular expression admits at index 0 is the one the scan computes. Leftmost-greedy `exec` is therefore deterministic here. |
| Url.SplitUrl | lib/lib.js:7-12 | `exec` never fails. It returns five slots: the matched prefix of the input, the scheme (absent when unmatched), the host (always present, possibly empty), the port and the path. |
| Url.GetBaseUrl | lib/lib.js:16-24 | The result is the scheme, `://`, the host, and `:` plus the port when one was captured. The `return url` fallback is never taken. The result starts with `undefined://` exactly when no scheme was recognised. |
| Url.BaseIsPrefix | lib/lib.js:14-20 | With a recognised scheme and no `www` prefix, the base is exactly the input up to the end of the port (or the host), so only the path is cut off. |
| UrlProperties.ReparseOrigin | lib/lib.js:8-20 | With a recognised scheme and a host the `www.` group cannot swallow, the base of the base followed by empty text or a `/…` path is the base. |
| UrlProperties.BaseUrlIdempotent | lib/lib.js:16-24 | Under the same guard, `getBaseUrl` is idempotent. |
| UrlProperties.BaseUrlDiscardsPath | lib/lib.js:14-20 | Under the same guard, a path appended to the base is cut off again. |
| UrlExamples.DocumentedExample | lib/lib.js:1-6 | The documented URL splits into `https`, `localhost`, `3000` and `relative/path/index.html`, and its base is `https://localhost:3000`. |
| UrlExamples.UpperCaseSchemeIsNotRecognised | lib/lib.js:8 | `HTTP://example.com` has no scheme, and its base is `undefined://HTTP`. |
| UrlExamples.UndefinedSchemeCollapses | lib/lib.js:20 | Without a scheme, applying `getBaseUrl` twice yields `undefined://undefined`. The scheme guard of idempotence cannot be dropped. |
| UrlExamples.WwwHostBeforePortIsNotStable | lib/lib.js:8 | `http://www.www:80` has host `www` and base `http://www:80`, whose base is `http://80`. A host that is exactly `www` breaks idempotence. |
| UrlExamples.WwwHostBeforePathIsNotStable | lib/lib.js:8 | `http://www` is its own base, but `http://www/a` has base `http://a`. |
| Deliveries.Build | lib/deliveries.js:5-7 | The registry's `emailjs` entry builds the e-mail delivery from the descriptor's configuration. |
| Deliveries.ContextFor | lib/deliveries.js:14-20 | The template context carries the token, the uid, the recipient and the request. Its `hostName` is `getBaseUrl` of the `Referer` header, which is `undefined://undefined` when the header is absent. |
| Deliveries.MissingRefererBase | lib/deliveries.js:15 | `getBaseUrl` of the string `undefined` is `undefined://undefined`. |
| Deliveries.RenderOrder | lib/deliveries.js:23-37 | Composition renders the text first. It renders the subject last when there is no HTML template, and the HTML template last when there is one. |
| Deliveries.FirstFailure | lib/deliveries.js:22-44 | The reported composition error is the exception of the first template in evaluation order that fails. There is no error exactly when every template renders. |
| Deliveries.Compose | lib/deliveries.js:13-37 | Without `msg`, composition fails with the TypeError of reading `msg.text`. Otherwise it fails exactly when some template in evaluation order fails, and it fails with the first failure. On success, the record holds: text and subject rendered from the context; `to` rendered from `msg.to` when truthy, else the uid; `from` rendered from `msg.to` when `msg.from` is truthy, else the SMTP user; one attachment, the rendered HTML as an alternative part, exactly when `msg.html` is truthy. |
| Deliveries.ComposeFailureOrder | lib/deliveries.js:23-37 | The first failure is located template by template: text, sender, recipient, subject, HTML. |
| Deliveries.EmailJsDeliver | lib/deliveries.js:12-45 | The callback runs exactly once, and at most one message is sent. Without `msg`, nothing is sent and the callback receives the prefixed TypeError. A composition error reaches the callback with the `Error while sending mail : ` prefix and nothing is sent. After composition the record is sent once. The transport's reported error, or null, is passed on unchanged, and a thrown transport exception is prefixed. |
| Strategy.CheckStore | lib/strategy.js:31-55 | A missing store is refused first. An initialised store is kept as it is. An uninitialised store is refused for a missing config, then for a non-string path. Otherwise it is loaded: a failed load is refused as not found, a constructor exception propagates, and a constructed store is marked initialised. A successful result is always an initialised store. |
| Strategy.ResolveDelivery | lib/strategy.js:65-67 | A function delivery is kept. A descriptor is replaced by the delivery its registered type builds. |
| Strategy.NormaliseAccess | lib/strategy.js:69-73 | A function access is kept. Any other value becomes the identity predicate. The result is always a function. |
| Strategy.CheckOptions | lib/strategy.js:29-74 | Only store, delivery and access can change. A store failure leaves the options untouched and stops before the delivery is examined. A delivery failure keeps the loaded store. Success happens exactly when the store step succeeds and the delivery is a function or a registered descriptor. On success the options are normalised: store initialised, delivery a function, access a function. |
| Strategy.NormalisedIsFixedPoint | lib/strategy.js:36-73 | On normalised options, `checkOptions` succeeds and changes nothing, with any loader. |
| Strategy.CheckOptionsIdempotent | lib/strategy.js:104-107 | Re-running `checkOptions` on its own successful output gives the same result, even with a different loader. With the own-key guard, the re-run that dynamic mode performs is harmless. |
| Strategy.ChooseTokenAlgorithm | lib/strategy.js:90-96 | Random base58 tokens are chosen exactly when `maxTokenLength` is truthy. Otherwise the `tokenAlgorithm` option is passed on unchanged. |
| Strategy.MaxTokenLengthWins | lib/strategy.js:92-95 | A truthy `maxTokenLength` makes the choice independent of any custom algorithm. |
| Strategy.InitPasswordless | lib/strategy.js:77-97 | The instance exists exactly when `checkOptions` succeeds, and its error is the configuration error. The instance holds: the normalised store and delivery; `allowTokenReuse` as a boolean; the token lifetime; the chosen token generator. |
| Strategy.NewStrategy | lib/strategy.js:10-24 | Without options, the constructor throws the missing-store error. In dynamic mode it keeps the options and creates no instance. Otherwise it succeeds exactly when `checkOptions` does, and it then holds normalised options. |
| Strategy.MergeIdempotent | lib/strategy.js:102 | Merging the same call options twice is merging them once, and merging none changes nothing. |
| Strategy.FieldName | lib/strategy.js:127-129 | A parameter is read under the configured field name when that name is truthy, else under the default name. |
| Strategy.GetParam | lib/strategy.js:127-129 | The value is the query's entry under that name, or absent. |
| Strategy.Classify | lib/strategy.js:109-123 | The verify branch is taken exactly when token and uid are both truthy. The token-request branch is taken exactly when that fails and the user is truthy. Otherwise the request is rejected. |
| Strategy.UserIgnoredWithTokenAndUid | lib/strategy.js:117-119 | Once token and uid are given, changing the user parameter does not change the branch. |
| Strategy.RejectMessage | lib/strategy.js:122 | The message is the fixed prefix, then the call's `delivery.type` (`undefined` when it has none), then the fixed suffix. Without call options, or with an absent or null delivery, reading the property throws. |
| Strategy.VerifyToken | lib/strategy.js:155-181 | The token store is asked first. A store error throws a ReferenceError. An invalid combination reports `Invalid token and user id combination!` without calling verify. Without a verify function, a valid combination throws a TypeError after the store call. Otherwise verify is called exactly for a valid combination. A verify error is reported as the error, and a falsy user as `fail(info)`. Success, with the verified user and info, happens exactly when the combination is valid, verify is a function, and its answer has no error and a truthy user. Invalidation happens exactly on a success without token reuse, and it comes before the success. |
| Strategy.AccessAdapter | lib/strategy.js:138-144 | A truthy user passes the access answer through. Otherwise the answer becomes the not-allowed error with a null user, and the predicate's own error is discarded. |
| Strategy.AskAccessOption | lib/strategy.js:136-138 | Calling an access option that is not a function throws. The identity predicate answers with no error and the same user. |
| Strategy.Completion | lib/strategy.js:145-151 | A truthy completion error is reported as `error(err)`. Otherwise the outcome is `pass`. |
| Strategy.UseDelivery | lib/strategy.js:132-152 | The token request is made first. When the library consults the access option, a non-function throws. Otherwise the completion sees the adapted answer. The outcome is always `error`, `pass` or an exception, never `success` or `fail`. |
| Strategy.DefaultAccessAdmitsTruthyUsers | lib/strategy.js:69-73 | Without an access function in the configuration, the identity predicate that `checkOptions` installs lets a truthy requested user through with no error. A falsy user meets the not-allowed refusal. |
| Strategy.RefusedUserSeesRefusal | lib/strategy.js:138-144 | A user refused by the access option reaches the completion as the not-allowed error. |
| Strategy.Dispatch | lib/strategy.js:109-124 | A rejected request makes no collaborator call and reports the rejection message, or throws while building it. The verify and token-request branches run `verifyToken` and `useDelivery` with the current options. Without a passwordless instance, they throw. |
| Strategy.Authenticate | lib/strategy.js:100-124 | The call's options are merged, and only store, delivery and access can differ from the merge afterwards. In static mode the state keeps the merged options and the existing instance. In dynamic mode the options are re-checked. A configuration error throws before any collaborator call. On success a fresh instance serves the request, and it is discarded afterwards: the instance the strategy holds is never changed by a call. |
| Strategy.MergedOptionsPersist | lib/strategy.js:102 | Settings passed to one call remain in force for a later call that passes none. |
| Strategy.DynamicModeKeepsStore | lib/strategy.js:104-107 | In dynamic mode, after a call whose re-check succeeds, the next call's re-initialisation leaves the options, and hence the loaded store, unchanged. |
| Strategy.DynamicInstanceDiesWithCall | lib/strategy.js:100-159 | A strategy without an instance still has none after a dynamic call. A later call that turns dynamic mode off and presents a token and uid throws reading `_tokenStore` of undefined, before any collaborator call. |
| Strategy.InheritedNamePassesGuard | lib/strategy.js:58-62 | A descriptor of type `toString` passes the delivery guard as written, though it names no registered delivery. |
| Strategy.CallInherited | lib/strategy.js:66 | Calling an inherited `Object.prototype` name on the registry with the descriptor gives back the descriptor exactly for `constructor`. It throws exactly for `__defineGetter__`, `__defineSetter__` and `__proto__`. Every other result fails the delivery guard when checked again. |
| Strategy.CheckOptionsAsWritten | lib/strategy.js:29-74 | With the guard and lookup as written, `checkOptions` agrees with the own-key version on every delivery except a descriptor whose type is an inherited name. For such a descriptor, after the store step, the delivery becomes whatever the inherited method returns, or the method's TypeError is thrown. |
| Strategy.CheckOptionsAsWrittenIdempotentIff | lib/strategy.js:104-107 | As written, re-running `checkOptions` on its own successful output changes nothing exactly when the delivery did not come through an inherited name other than `constructor`. |
| Strategy.IdempotenceBreaksAsWritten | lib/strategy.js:58-67 | A `toString` descriptor is refused at once by the own-key guard. As written it passes, the delivery becomes the string `[object Object]`, and the next re-run throws the invalid-delivery error. |
| Strategy.InvalidDeliveryListsRegistry | lib/strategy.js:59-61 | The invalid-delivery error is its fixed wording followed by the registered delivery names joined by commas, here `emailjs`. |
| Strategy.AcceptedDeliveriesResolve | lib/strategy.js:58-67 | The own-key guard accepts exactly function deliveries and descriptors whose type is a registered key, and it is no more permissive than the guard as written. |
| TokenStoreContract.TokenIsSingleUse | lib/strategy.js:169-172 | Without token reuse, after a success against a store that honours its contract, the same token and uid meet the invalid-combination error, and verify is not called. |
| TokenStoreContract.TokenReusable | lib/strategy.js:173-175 | With token reuse, a success leaves the store unchanged, and the same verification succeeds again. |
| TokenStoreContract.FailedVerificationKeepsStore | lib/strategy.js:159-179 | A verification that does not succeed leaves the token store unchanged. |

## Left out

- The factory part of `emailjs` (`require(options.path)` and `connect`, `lib/deliveries.js:9-10`) is left out. It is runtime module loading and network setup. The descriptor's configuration reaches the delivery unchanged.
- Template compilation and the SMTP transport are opaque parameters. Rendering is a function from a template and the context to a string or an exception. Sending yields a reported error value or a thrown exception.
- `Deliveries.EmailJsDeliver`: a transport that both calls back and then throws, or that never calls back, is not modelled. The single-callback property assumes a transport that does exactly one of these.
- The store loader (`require` followed by `new ...lib.call(config)`, `lib/strategy.js:42-51`) is an opaque function that either fails, throws, or yields a store. As written, `require` receives the store object rather than its `path`, and `lib.call` is not a constructor, so a real load would fail. The model does not decide which.
- Crypto and base58 generation of tokens is left out. Only the choice of generator is modelled. The byte count is read from the options when a token is generated, which the passwordless library does and which is not part of this model.
- The passwordless library (`requestToken`, `addDelivery`, the token store's persistence and expiry) is not part of this model. Its observable answers are parameters: whether it consults the access option, and what its completion reports.
- Asynchrony and callback timing are left out. Each callback is treated as running to completion in program order. So is the passport base class (`Strategy.call`, `util.inherits`, the `success`/`fail`/`error`/`pass` actions), whose calls are recorded as the run's ending.
- Exceptions thrown inside the passwordless library's constructor, `init` or `addDelivery` are left out.
- Values are limited to the shapes the code distinguishes. Query values are restricted to strings: the arrays a query parser yields for a repeated key (`?token=&token=` gives a truthy array, not `""`) and the nested objects of an extended parser are not modelled, and the field-name options are strings or absent. Numbers are integers, since only their truthiness matters here.
- `sample.config.js` is configuration data and has no logic of its own.
- `Strategy.FieldName`: a configured field name that is a truthy non-string is not modelled.
- `Strategy.CheckOptions`: uses the own-key delivery guard, which accepts only the registry's own keys. The guard as written also accepts inherited `Object.prototype` names. That behaviour is modelled separately by `Strategy.CheckOptionsAsWritten` (see Findings). `Strategy.InitPasswordless`, `Strategy.NewStrategy` and `Strategy.Authenticate` call the own-key version.
- `Strategy.CheckOptionsIdempotent`: holds for the own-key guard. As written, idempotence fails for inherited names other than `constructor`, as `Strategy.CheckOptionsAsWrittenIdempotentIff` states.
- `Strategy.NewStrategy`: each strategy holds its own value of the options, which the source does not do. At `lib/strategy.js:14`, `util._extend` is called with no source object, so it returns the caller's options object unchanged and copies nothing, although the comment on line 13 says the line exists so that several strategies can run at once. The strategy therefore shares that object with the application and with every other strategy built from it, and every later in-place write lands there: the loaded store and its `initialized` flag (`lib/strategy.js:50-51`), the built delivery (line 66), the installed access predicate (line 70) and the per-call merge (line 102). For example, a per-call merge on one dynamic strategy changes the field names, `allowTokenReuse` or `dynamicConfig` that another strategy over the same object reads. The model has no shared heap, so `Strategy.StrategyState` holds the options as a value, and `Strategy.Authenticate` and `Strategy.MergedOptionsPersist` describe one strategy on its own.
- `Deliveries.Compose`: the missing-`msg` error is V8's current wording for an undefined `msg`. A null `msg` reads `of null` instead, and older V8 versions word it differently. A `config` without a `server` object, whose `.user` read throws when `msg.from` is falsy, is not modelled.
- `Url.SplitUrl`: strings are sequences of Unicode code points. The regular expression has no `u` flag, so JavaScript runs it over UTF-16 code units. The one place this changes the match is the unescaped `.` after `www`. Given a character outside the Basic Multilingual Plane, JavaScript's `.` takes only the first code unit and the host starts with the second, while the model takes the whole character. `Url.GetBaseUrl` inherits the difference.

## Findings

| source | as written | input that shows it | evidently intended | confidence | as-written member | corrected member |
|---|---|---|---|---|---|---|
| lib/strategy.js:58-67 | The delivery guard looks up `deliveries[type]` on a plain object, so inherited `Object.prototype` names pass. | `{ type: 'toString' }` passes the guard. `deliveries.toString(descriptor)` then replaces the delivery with the string `[object Object]`, and the re-run in dynamic mode throws the invalid-delivery error. | Only the registry's own keys (`emailjs`) are accepted, and `checkOptions` is idempotent. | not executed; follows from JavaScript property lookup | Strategy.IdempotenceBreaksAsWritten | Strategy.CheckOptionsIdempotent |

The rest of the model uses the corrected guard, `Strategy.AcceptsDelivery`. The guard as written is `Strategy.AcceptsDeliveryAsWritten`. `checkOptions` as written is `Strategy.CheckOptionsAsWritten`.

=== FILE: deliveries.dfy ===
/**
  The delivery registry (lib/deliveries.js): a table from a delivery type
  name to a factory, with one built-in entry, `emailjs`. The factory's
  loading of the mail library and its SMTP connection are left out; what is
  modelled is the delivery function it returns, which composes the e-mail
  from templates and hands it to the transport.
 */
module Deliveries {
  import opened Wrappers
  import opened JsValues
  import Url

  /** The registered delivery type names, in the order `Object.keys` lists them. */
  const RegistryKeys: seq<string> := ["emailjs"]

  predicate IsRegistered(name: string) {
    name in RegistryKeys
  }

  /** The templates of `options.config.msg`; `None` where a property is absent. */
  datatype MessageTemplates = MessageTemplates(
    text: Option<string>,
    from: Option<string>,
    to: Option<string>,
    subject: Option<string>,
    html: Option<string>)

  /**
    What the e-mail delivery reads from its descriptor: the SMTP account
    user and the templates, `None` when `config.msg` is undefined or null.
   */
  datatype EmailConfig = EmailConfig(serverUser: Option<string>, msg: Option<MessageTemplates>)

  /** A delivery function: one supplied by the application, or one built by the registry. */
  datatype DeliverFn = AppDelivery(handle: nat) | EmailJsDelivery(config: EmailConfig)

  /** The `delivery` option of the strategy, as supplied. */
  datatype DeliveryValue =
    | NoDelivery                                                   // undefined or null
    | Callable(fn: DeliverFn)
    | Described(deliveryType: Option<string>, config: EmailConfig)  // a descriptor object
    | Primitive(text: string)                                      // a string value, which has no `type`
    | Boolean(value: bool)                                         // a boolean, which has no `type`

  /** The value's `type` property. */
  function TypeOf(d: DeliveryValue): Option<string> {
    if d.Described? then d.deliveryType else None
  }

  /** `deliveries[name](descriptor)` for a registered name. */
  function Build(name: string, config: EmailConfig): (f: DeliverFn)
    requires IsRegistered(name)
    ensures f.EmailJsDelivery? && f.config == config
  {
    EmailJsDelivery(config)
  }

  // ---------------------------------------------------------------------
  // The e-mail delivery function
  // ---------------------------------------------------------------------

  /** The object every template is rendered against. */
  datatype TemplateContext = TemplateContext(
    hostName: string,
    tokenToSend: string,
    uidToSend: string,
    recipient: string,
    request: Request)

  /** One attachment of the message; the HTML body travels as an alternative part. */
  datatype Attachment = Attachment(data: string, alternative: bool)

  /** The record handed to the SMTP client. `from` is `None` when the SMTP user is absent. */
  datatype Email = Email(
    text: string,
    from: Option<string>,
    to: string,
    subject: string,
    attachment: Option<seq<Attachment>>)

  /**
    Template rendering (compile, then apply to the context). A failure
    carries the string form of the exception it raised.
   */
  type Renderer = (Option<string>, TemplateContext) -> Result<string, string>

  /** What the transport does with a message: reports an error value (or null) to its callback, or throws. */
  datatype SendOutcome = Reported(err: JsValue) | SendThrew(exception: string)

  /** The observable effects of one delivery: messages handed to the transport and callback invocations. */
  datatype DeliveryRun = DeliveryRun(sent: seq<Email>, callbacks: seq<JsValue>)

  const ComposeErrorPrefix: string := "Error while sending mail : "

  /** The string form of the TypeError V8 raises reading `msg.text` when `msg` is undefined. */
  const MissingMsgError: string := "TypeError: Cannot read properties of undefined (reading 'text')"

  /** The template context: `hostName` is the origin of the `Referer` header. */
  function ContextFor(token: string, uid: string, recipient: string, req: Request): (ctx: TemplateContext)
    ensures ctx.hostName == Url.GetBaseUrl(ToJsString(req.referer))
    ensures req.referer.None? ==> ctx.hostName == "undefined://undefined"
    ensures ctx.tokenToSend == token && ctx.uidToSend == uid && ctx.recipient == recipient && ctx.request == req
  {
    MissingRefererBase();
    TemplateContext(Url.GetBaseUrl(ToJsString(req.referer)), token, uid, recipient, req)
  }

  /** An absent header is converted to the string "undefined" before matching. */
  lemma MissingRefererBase()
    ensures Url.GetBaseUrl("undefined") == "undefined://undefined"
  {
    var q := Url.UrlParts(None, "", "undefined", None, None);
    BareUndefinedIsMatch();
    Url.ParseUnique("undefined", q);
    assert Url.Origin(q) == "undefined" + "://" + "undefined";
  }

  /** The bare word is all host: no scheme, no `www.`, no port, no path. */
  lemma BareUndefinedIsMatch()
    ensures Url.IsRegexMatch("undefined", Url.UrlParts(None, "", "undefined", None, None))
  {
    var u := "undefined";
    var q := Url.UrlParts(None, "", "undefined", None, None);
    assert Url.SchemeGroup(u, q) by {
      assert u[..9] == "undefined";
    }
    assert Url.HostGroup(u, q) by {
      assert u[0..9] == u;
    }
  }

  /**
    The templates rendered while composing, in evaluation order: text, then
    `msg.to` for the sender when `msg.from` is truthy, then `msg.to` for the
    recipient when it is truthy, then the subject, then the HTML body when it
    is truthy.
   */
  function RenderOrder(msg: MessageTemplates): (jobs: seq<Option<string>>)
    ensures |jobs| >= 2 && jobs[0] == msg.text
    ensures Present(msg.html) ==> jobs[|jobs| - 1] == msg.html
    ensures !Present(msg.html) ==> jobs[|jobs| - 1] == msg.subject
  {
    [msg.text]
    + (if Present(msg.from) then [msg.to] else [])
    + (if Present(msg.to) then [msg.to] else [])
    + [msg.subject]
    + (if Present(msg.html) then [msg.html] else [])
  }

  /** The exception of the first template in `jobs` whose rendering fails, if any. */
  function FirstFailure(jobs: seq<Option<string>>, ctx: TemplateContext, render: Renderer): (e: Option<string>)
    ensures e.None? <==> forall i :: 0 <= i < |jobs| ==> render(jobs[i], ctx).Success?
    ensures e.Some? ==> exists i :: 0 <= i < |jobs| && render(jobs[i], ctx) == Failure(e.value)
                                    && (forall j :: 0 <= j < i ==> render(jobs[j], ctx).Success?)
  {
    if |jobs| == 0 then None
    else match render(jobs[0], ctx)
      case Failure(e) => Some(e)
      case Success(_) =>
        var rest := FirstFailure(jobs[1..], ctx, render);
        if rest.Some? then
          ghost var i :| 0 <= i < |jobs[1..]| && render(jobs[1..][i], ctx) == Failure(rest.value)
                         && (forall j :: 0 <= j < i ==> render(jobs[1..][j], ctx).Success?);
          assert render(jobs[i + 1], ctx) == Failure(rest.value);
          rest
        else
          rest
  }

  /**
    The `try` block of the delivery function up to the send: the e-mail
    record, or the exception that aborted its composition. The first read
    of `msg` is inside the `try`, so a missing `msg` fails there too.
   */
  function Compose(cfg: EmailConfig, uid: string, ctx: TemplateContext, render: Renderer): (r: Result<Email, string>)
    ensures cfg.msg.None? ==> r == Failure(MissingMsgError)
    ensures cfg.msg.Some? ==> (r.Failure? <==> FirstFailure(RenderOrder(cfg.msg.value), ctx, render).Some?)
    ensures cfg.msg.Some? && r.Failure? ==> r.error == FirstFailure(RenderOrder(cfg.msg.value), ctx, render).value
    ensures r.Success? ==>
      var msg := cfg.msg.value;
      var m := r.value;
      && cfg.msg.Some?
      && Success(m.text) == render(msg.text, ctx)
      && Success(m.subject) == render(msg.subject, ctx)
      && (Present(msg.from) ==> m.from.Some? && Success(m.from.value) == render(msg.to, ctx))
      && (!Present(msg.from) ==> m.from == cfg.serverUser)
      && (Present(msg.to) ==> Success(m.to) == render(msg.to, ctx))
      && (!Present(msg.to) ==> m.to == uid)
      && (m.attachment.Some? <==> Present(msg.html))
      && (Present(msg.html) ==> m.attachment == Some([Attachment(render(msg.html, ctx).value, true)]))
  {
    match cfg.msg
    case None => Failure(MissingMsgError)
    case Some(msg) => ComposeTemplates(msg, cfg.serverUser, uid, ctx, render)
  }

  /** Composition from templates that are present, in the object literal's evaluation order. */
  function ComposeTemplates(msg: MessageTemplates, serverUser: Option<string>, uid: string, ctx: TemplateContext, render: Renderer): (r: Result<Email, string>)
    ensures r.Failure? <==> FirstFailure(RenderOrder(msg), ctx, render).Some?
    ensures r.Failure? ==> r.error == FirstFailure(RenderOrder(msg), ctx, render).value
  {
    var text := render(msg.text, ctx);
    var from: Result<Option<string>, string> :=
      if Present(msg.from) then
        (match render(msg.to, ctx) case Success(s) => Success(Some(s)) case Failure(e) => Failure(e))
      else Success(serverUser);
    var to := if Present(msg.to) then render(msg.to, ctx) else Success(uid);
    var subject := render(msg.subject, ctx);
    var html := if Present(msg.html) then render(msg.html, ctx) else Success("");
    ComposeFailureOrder(msg, ctx, render);
    if text.Failure? then Failure(text.error)
    else if from.Failure? then Failure(from.error)
    else if to.Failure? then Failure(to.error)
    else if subject.Failure? then Failure(subject.error)
    else if html.Failure? then Failure(html.error)
    else
      Success(Email(text.value, from.value, to.value, subject.value,
        if Present(msg.html) then Some([Attachment(html.value, true)]) else None))
  }

  /** Walks `RenderOrder` one template at a time. */
  lemma ComposeFailureOrder(msg: MessageTemplates, ctx: TemplateContext, render: Renderer)
    ensures var f := FirstFailure(RenderOrder(msg), ctx, render);
      && (render(msg.text, ctx).Failure? ==> f == Some(render(msg.text, ctx).error))
      && (render(msg.text, ctx).Success? && Present(msg.from) && render(msg.to, ctx).Failure? ==> f == Some(render(msg.to, ctx).error))
      && (render(msg.text, ctx).Success? && (!Present(msg.from) || render(msg.to, ctx).Success?) ==>
          && (Present(msg.to) && render(msg.to, ctx).Failure? ==> f == Some(render(msg.to, ctx).error))
          && ((!Present(msg.to) || render(msg.to, ctx).Success?) ==>
              && (render(msg.subject, ctx).Failure? ==> f == Some(render(msg.subject, ctx).error))
              && (render(msg.subject, ctx).Success? ==>
                  && (Present(msg.html) && render(msg.html, ctx).Failure? ==> f == Some(render(msg.html, ctx).error))
                  && ((!Present(msg.html) || render(msg.html, ctx).Success?) ==> f == None))))
  {
    ComposeFailureChain(msg, ctx, render);
  }

  /** The rendering error of one template, if any. */
  function FailureOf(template: Option<string>, ctx: TemplateContext, render: Renderer): (e: Option<string>)
    ensures e.Some? <==> render(template, ctx).Failure?
    ensures e.Some? ==> e.value == render(template, ctx).error
  {
    match render(template, ctx)
    case Failure(err) => Some(err)
    case Success(_) => None
  }

  function OrElse(first: Option<string>, second: Option<string>): Option<string> {
    if first.Some? then first else second
  }

  /** The failure of a job list of at most one entry, followed by more jobs. */
  function FailureOfHead(xs: seq<Option<string>>, ctx: TemplateContext, render: Renderer): Option<string> {
    if xs == [] then None else FailureOf(xs[0], ctx, render)
  }

  /** The first failure of the render order, stage by stage, with no quantifier left. */
  lemma ComposeFailureChain(msg: MessageTemplates, ctx: TemplateContext, render: Renderer)
    ensures FirstFailure(RenderOrder(msg), ctx, render)
      == OrElse(FailureOf(msg.text, ctx, render),
         OrElse(if Present(msg.from) then FailureOf(msg.to, ctx, render) else None,
         OrElse(if Present(msg.to) then FailureOf(msg.to, ctx, render) else None,
         OrElse(FailureOf(msg.subject, ctx, render),
                if Present(msg.html) then FailureOf(msg.html, ctx, render) else None))))
  {
    var a := [msg.text];
    var b := if Present(msg.from) then [msg.to] else [];
    var c := if Present(msg.to) then [msg.to] else [];
    var d := [msg.subject];
    var e := if Present(msg.html) then [msg.html] else [];
    assert RenderOrder(msg) == a + (b + (c + (d + e)));
    FirstFailureOfAtMostOne(e, ctx, render);
    FirstFailureCons(d, e, ctx, render);
    FirstFailureCons(c, d + e, ctx, render);
    FirstFailureCons(b, c + (d + e), ctx, render);
    FirstFailureCons(a, b + (c + (d + e)), ctx, render);
  }

  lemma FirstFailureCons(xs: seq<Option<string>>, ys: seq<Option<string>>, ctx: TemplateContext, render: Renderer)
    requires |xs| <= 1
    ensures FirstFailure(xs + ys, ctx, render) == OrElse(FailureOfHead(xs, ctx, render), FirstFailure(ys, ctx, render))
  {
    FirstFailureAppend(xs, ys, ctx, render);
    FirstFailureOfAtMostOne(xs, ctx, render);
  }

  /** An empty job list has no failure; a single job fails exactly when its rendering does. */
  lemma FirstFailureOfAtMostOne(xs: seq<Option<string>>, ctx: TemplateContext, render: Renderer)
    requires |xs| <= 1
    ensures FirstFailure(xs, ctx, render) == FailureOfHead(xs, ctx, render)
  {
  }

  /** The first failure of a concatenation is the first failure of its head part, else of its tail. */
  lemma {:induction false} FirstFailureAppend(xs: seq<Option<string>>, ys: seq<Option<string>>, ctx: TemplateContext, render: Renderer)
    ensures FirstFailure(xs + ys, ctx, render)
      == if FirstFailure(xs, ctx, render).Some? then FirstFailure(xs, ctx, render) else FirstFailure(ys, ctx, render)
    decreases |xs|
  {
    if |xs| > 0 {
      assert (xs + ys)[0] == xs[0];
      assert (xs + ys)[1..] == xs[1..] + ys;
      FirstFailureAppend(xs[1..], ys, ctx, render);
    } else {
      assert xs + ys == ys;
    }
  }

  /**
    The function `deliveries.emailjs(options)` returns, applied to one
    token: composition errors and transport exceptions become the single
    callback argument, prefixed; otherwise the transport's own error value
    (or null) is passed on unchanged.
   */
  function EmailJsDeliver(
    cfg: EmailConfig, render: Renderer, send: Email -> SendOutcome,
    token: string, uid: string, recipient: string, req: Request): (run: DeliveryRun)
    ensures |run.callbacks| == 1 && |run.sent| <= 1
    ensures cfg.msg.None? ==> run == DeliveryRun([], [Str(ComposeErrorPrefix + MissingMsgError)])
    ensures var composed := Compose(cfg, uid, ContextFor(token, uid, recipient, req), render);
      && (composed.Failure? ==> run.sent == [] && run.callbacks == [Str(ComposeErrorPrefix + composed.error)])
      && (composed.Success? ==> run.sent == [composed.value])
      && (composed.Success? && send(composed.value).Reported? ==> run.callbacks == [send(composed.value).err])
      && (composed.Success? && send(composed.value).SendThrew? ==>
            run.callbacks == [Str(ComposeErrorPrefix + send(composed.value).exception)])
  {
    var ctx := ContextFor(token, uid, recipient, req);
    match Compose(cfg, uid, ctx, render)
    case Failure(e) => DeliveryRun([], [Str(ComposeErrorPrefix + e)])
    case Success(email) =>
      match send(email)
      case Reported(err) => DeliveryRun([email], [err])
      case SendThrew(e) => DeliveryRun([email], [Str(ComposeErrorPrefix + e)])
  }
}

=== FILE: js_values.dfy ===
/**
  The few pieces of JavaScript value semantics the strategy depends on:
  truthiness, the string conversion of `undefined`, and the shape of an
  incoming HTTP request.
 */
module JsValues {
  import opened Wrappers

  /** A JavaScript value as seen by the strategy's callbacks (users, infos, errors). */
  datatype JsValue =
    | Undefined
    | Null
    | Bool(b: bool)
    | Num(n: int)
    | Str(s: string)
    | Obj(handle: nat)   // any object or function, identified by reference

  /** JavaScript truthiness (NaN is not modelled). */
  predicate Truthy(v: JsValue) {
    match v
    case Undefined => false
    case Null => false
    case Bool(b) => b
    case Num(n) => n != 0
    case Str(s) => s != ""
    case Obj(_) => true
  }

  /** Truthiness of a string-or-undefined value. */
  predicate Present(v: Option<string>) {
    v.Some? && v.value != ""
  }

  /** `String(v)` for a string-or-undefined value, as used by `+` concatenation. */
  function ToJsString(v: Option<string>): (r: string)
    ensures v.None? ==> r == "undefined"
    ensures v.Some? ==> r == v.value
  {
    match v
    case None => "undefined"
    case Some(s) => s
  }

  /**
    An incoming HTTP request, reduced to what the core reads: the parsed
    query string, whose values are restricted to strings (a parser's arrays
    for repeated keys and nested objects are not modelled), and the
    `Referer` header, which may be absent.
   */
  datatype Request = Request(query: map<string, string>, referer: Option<string>)
}

=== FILE: strategy.dfy ===
/**
  The passport strategy of lib/strategy.js: configuration checking and
  normalisation, the passwordless instance it builds, and the per-request
  controller that classifies a request and maps collaborator answers onto
  exactly one passport outcome (or an exception).

  Collaborators the strategy cannot see are parameters: the store loader,
  the token store's answer, the application's verify and access callbacks,
  and the passwordless library's token request.
 */
module Strategy {
  import opened Wrappers
  import opened JsValues
  import opened Deliveries

  // ---------------------------------------------------------------------
  // Configuration
  // ---------------------------------------------------------------------

  /**
    A store object: `initialized` and `config` are read for truthiness,
    `path` only for being a string. A truthy non-object store behaves as an
    uninitialised store without a config.
   */
  datatype StoreObject = StoreObject(initialized: bool, hasConfig: bool, path: Option<string>, handle: nat)

  /** The `store` option; `NoStore` for any falsy value. */
  datatype StoreValue = NoStore | Store(obj: StoreObject)

  /** The loader of a store library (`require` followed by `new ...lib.call(config)`). */
  datatype LoadOutcome = LoadFailed | ConstructionFailed(exception: string) | Loaded(instance: StoreObject)

  /** The `access` option: a value that is not a function, the application's function, or the built-in identity. */
  datatype AccessValue = NonFunctionAccess | AppAccess(handle: nat) | IdentityAccess

  predicate IsFunctionAccess(a: AccessValue) {
    !a.NonFunctionAccess?
  }

  /** The strategy's options object. Field names default to `user`, `token` and `uid` when falsy. */
  datatype Options = Options(
    store: StoreValue,
    delivery: DeliveryValue,
    access: AccessValue,
    userField: Option<string>,
    tokenField: Option<string>,
    uidField: Option<string>,
    allowTokenReuse: JsValue,
    tokenLifeTime: JsValue,
    maxTokenLength: JsValue,
    tokenAlgorithm: JsValue,
    dynamicConfig: JsValue)

  /** The options object `{}` used when the constructor receives none. */
  const EmptyOptions: Options :=
    Options(NoStore, NoDelivery, NonFunctionAccess, None, None, None, Undefined, Undefined, Undefined, Undefined, Undefined)

  /** Why configuration checking stopped. */
  datatype ConfigError =
    | MissingStore
    | MissingStoreConfig
    | MissingStorePath
    | StoreNotFound
    | StoreConstructorThrew(exception: string)   // propagated as thrown, not wrapped
    | InvalidDelivery
  {
    function Message(): string {
      match this
      case MissingStore =>
        "Store parameter is missing! Please specify a valid passwordless datastore! (https://passwordless.net/plugins)"
      case MissingStoreConfig =>
        "Store parameter is missing! Please specify a passwordless datastore parameters!"
      case MissingStorePath =>
        "Please specify a valid dataStore path to load the store!"
      case StoreNotFound =>
        "Passwordless datastore not found! Please specify a valid passwordless datastore!"
      case StoreConstructorThrew(e) => e
      case InvalidDelivery => InvalidDeliveryWording + Join(RegistryKeys, ", ")
    }
  }

  /** The fixed wording of the invalid-delivery error, before the list of registered names. */
  const InvalidDeliveryWording: string :=
    "Delivery parameter is missing or invalid! Please specify a valid delivery! "
    + "The delivery must be a functions or one of the following specified deliveries + : "

  /** The invalid-delivery error ends with the registered delivery names, joined by commas. */
  lemma InvalidDeliveryListsRegistry()
    ensures var m := InvalidDelivery.Message();
      && m[..|InvalidDeliveryWording|] == InvalidDeliveryWording
      && m[|InvalidDeliveryWording|..] == Join(RegistryKeys, ", ") == "emailjs"
  {
    EndsWith(InvalidDeliveryWording, Join(RegistryKeys, ", "));
  }

  lemma EndsWith(a: string, b: string)
    ensures (a + b)[..|a|] == a && (a + b)[|a|..] == b
  {
  }

  /** `Array.prototype.join`. */
  function Join(parts: seq<string>, sep: string): (r: string)
    ensures |parts| == 1 ==> r == parts[0]
  {
    if |parts| == 0 then ""
    else if |parts| == 1 then parts[0]
    else parts[0] + sep + Join(parts[1..], sep)
  }

  /** An exception escaping a strategy call. */
  datatype Exception =
    | ConfigurationError(error: ConfigError)
    | UnboundVariable(name: string)          // ReferenceError
    | PropertyOfNothing(property: string)    // TypeError: property read on undefined or null
    | NotCallable(name: string)              // TypeError: a non-function where a function is needed

  /** The store step of `checkOptions`: the (possibly loaded) store, or why it was refused. */
  function CheckStore(store: StoreValue, load: StoreObject -> LoadOutcome): (r: Result<StoreValue, ConfigError>)
    ensures r.Success? ==> r.value.Store? && r.value.obj.initialized
    ensures store.Store? && store.obj.initialized ==> r == Success(store)
    ensures store.NoStore? ==> r == Failure(MissingStore)
    ensures store.Store? && !store.obj.initialized ==>
      && (!store.obj.hasConfig ==> r == Failure(MissingStoreConfig))
      && (store.obj.hasConfig && store.obj.path.None? ==> r == Failure(MissingStorePath))
      && (store.obj.hasConfig && store.obj.path.Some? ==>
            && (load(store.obj).LoadFailed? ==> r == Failure(StoreNotFound))
            && (load(store.obj).ConstructionFailed? ==> r == Failure(StoreConstructorThrew(load(store.obj).exception)))
            && (load(store.obj).Loaded? ==> r == Success(Store(load(store.obj).instance.(initialized := true)))))
  {
    match store
    case NoStore => Failure(MissingStore)
    case Store(obj) =>
      if obj.initialized then Success(store)
      else if !obj.hasConfig then Failure(MissingStoreConfig)
      else if obj.path.None? then Failure(MissingStorePath)
      else match load(obj)
        case LoadFailed => Failure(StoreNotFound)
        case ConstructionFailed(e) => Failure(StoreConstructorThrew(e))
        case Loaded(instance) => Success(Store(instance.(initialized := true)))
  }

  /**
    The delivery guard: a function, or a descriptor whose `type` names a
    registered delivery. Only the registry's own keys count (see
    `AcceptsDeliveryAsWritten` for the lookup as JavaScript performs it).
   */
  predicate AcceptsDelivery(d: DeliveryValue) {
    match d
    case NoDelivery => false
    case Callable(_) => true
    case Described(t, _) => Present(t) && IsRegistered(t.value)
    case Primitive(_) => false
    case Boolean(_) => false
  }

  /** The delivery function an accepted delivery option stands for. */
  function ResolveDelivery(d: DeliveryValue): (f: DeliverFn)
    requires AcceptsDelivery(d)
    ensures d.Callable? ==> f == d.fn
    ensures d.Described? ==> f == EmailJsDelivery(d.config)
  {
    match d
    case Callable(fn) => fn
    case Described(t, cfg) => Build(t.value, cfg)
  }

  /** The identity access predicate replaces any access option that is not a function. */
  function NormaliseAccess(a: AccessValue): (r: AccessValue)
    ensures IsFunctionAccess(r)
    ensures IsFunctionAccess(a) ==> r == a
    ensures !IsFunctionAccess(a) ==> r == IdentityAccess
  {
    if IsFunctionAccess(a) then a else IdentityAccess
  }

  /** Options as `checkOptions` leaves them after succeeding. */
  predicate Normalised(o: Options) {
    && o.store.Store? && o.store.obj.initialized
    && o.delivery.Callable?
    && IsFunctionAccess(o.access)
  }

  /** Options holding the same settings; they may differ in store, delivery and access. */
  predicate SameSettings(a: Options, b: Options) {
    a.(store := b.store, delivery := b.delivery, access := b.access) == b
  }

  /**
    The result of `checkOptions`: the options object as the call leaves it
    (it is updated in place, so a failure can follow a store replacement),
    and the error it threw, if any.
   */
  datatype Checked = Checked(options: Options, failure: Option<ConfigError>)

  /** `checkOptions`: store first, then the delivery, then the access predicate. */
  function CheckOptions(o: Options, load: StoreObject -> LoadOutcome): (r: Checked)
    ensures SameSettings(r.options, o)
    ensures CheckStore(o.store, load).Failure? ==> r == Checked(o, Some(CheckStore(o.store, load).error))
    ensures CheckStore(o.store, load).Success? && !AcceptsDelivery(o.delivery) ==>
      r == Checked(o.(store := CheckStore(o.store, load).value), Some(InvalidDelivery))
    ensures r.failure.None? <==> CheckStore(o.store, load).Success? && AcceptsDelivery(o.delivery)
    ensures r.failure.None? ==>
      && Normalised(r.options)
      && r.options.store == CheckStore(o.store, load).value
      && r.options.delivery == Callable(ResolveDelivery(o.delivery))
      && r.options.access == NormaliseAccess(o.access)
  {
    match CheckStore(o.store, load)
    case Failure(e) => Checked(o, Some(e))
    case Success(store) =>
      var o1 := o.(store := store);
      if !AcceptsDelivery(o1.delivery) then Checked(o1, Some(InvalidDelivery))
      else
        var o2 := o1.(delivery := Callable(ResolveDelivery(o1.delivery)));
        Checked(o2.(access := NormaliseAccess(o2.access)), None)
  }

  /** Normalised options are a fixed point of `checkOptions`, whatever the loader. */
  lemma NormalisedIsFixedPoint(o: Options, load: StoreObject -> LoadOutcome)
    requires Normalised(o)
    ensures CheckOptions(o, load) == Checked(o, None)
  {
    assert o.delivery == Callable(ResolveDelivery(o.delivery));
    assert o.(store := o.store, delivery := o.delivery, access := o.access) == o;
  }

  /** Re-running `checkOptions` on its successful output changes nothing and loads no store. */
  lemma CheckOptionsIdempotent(o: Options, load: StoreObject -> LoadOutcome, reload: StoreObject -> LoadOutcome)
    requires CheckOptions(o, load).failure.None?
    ensures CheckOptions(CheckOptions(o, load).options, reload) == CheckOptions(o, load)
  {
    NormalisedIsFixedPoint(CheckOptions(o, load).options, reload);
  }

  // ---------------------------------------------------------------------
  // The passwordless instance
  // ---------------------------------------------------------------------

  /**
    The token generator handed to the delivery: a truthy `maxTokenLength`
    selects random bytes encoded in base58 (the byte count is read from the
    options when a token is generated), otherwise the `tokenAlgorithm`
    option is passed on as it is.
   */
  datatype TokenAlgorithm = RandomBase58 | CustomAlgorithm(value: JsValue)

  function ChooseTokenAlgorithm(maxTokenLength: JsValue, tokenAlgorithm: JsValue): (alg: TokenAlgorithm)
    ensures alg.RandomBase58? <==> Truthy(maxTokenLength)
    ensures alg.CustomAlgorithm? ==> alg.value == tokenAlgorithm
  {
    if Truthy(maxTokenLength) then RandomBase58 else CustomAlgorithm(tokenAlgorithm)
  }

  /** A truthy `maxTokenLength` wins over any custom algorithm. */
  lemma MaxTokenLengthWins(maxTokenLength: JsValue, a: JsValue, b: JsValue)
    requires Truthy(maxTokenLength)
    ensures ChooseTokenAlgorithm(maxTokenLength, a) == ChooseTokenAlgorithm(maxTokenLength, b) == RandomBase58
  {
  }

  /** What the strategy configures on its passwordless instance. */
  datatype Passwordless = Passwordless(
    store: StoreObject,
    allowTokenReuse: bool,
    delivery: DeliverFn,
    ttl: JsValue,
    algorithm: TokenAlgorithm)

  datatype Initialised = Initialised(options: Options, instance: Result<Passwordless, Exception>)

  /** `initPasswordless`: check the options, then configure a fresh instance from them. */
  function InitPasswordless(o: Options, load: StoreObject -> LoadOutcome): (r: Initialised)
    ensures r.options == CheckOptions(o, load).options
    ensures r.instance.Success? <==> CheckOptions(o, load).failure.None?
    ensures r.instance.Failure? ==> r.instance.error == ConfigurationError(CheckOptions(o, load).failure.value)
    ensures r.instance.Success? ==>
      var p := r.instance.value;
      && Store(p.store) == r.options.store && p.store.initialized
      && Callable(p.delivery) == r.options.delivery
      && p.allowTokenReuse == Truthy(o.allowTokenReuse)
      && p.ttl == o.tokenLifeTime
      && p.algorithm == ChooseTokenAlgorithm(o.maxTokenLength, o.tokenAlgorithm)
  {
    var checked := CheckOptions(o, load);
    if checked.failure.Some? then
      Initialised(checked.options, Failure(ConfigurationError(checked.failure.value)))
    else
      var c := checked.options;
      Initialised(c, Success(Passwordless(
        c.store.obj, Truthy(c.allowTokenReuse), c.delivery.fn, c.tokenLifeTime,
        ChooseTokenAlgorithm(c.maxTokenLength, c.tokenAlgorithm))))
  }

  /** The strategy object: its options and, once initialised, its passwordless instance. */
  datatype StrategyState = StrategyState(options: Options, passwordless: Option<Passwordless>)

  datatype Created = Created(state: StrategyState) | CreationThrew(exception: Exception)

  /**
    The constructor: without options it starts from `{}`; unless
    `dynamicConfig` is truthy it initialises passwordless at once, so a bad
    configuration throws here.
   */
  function NewStrategy(options: Option<Options>, load: StoreObject -> LoadOutcome): (r: Created)
    ensures options.None? ==> r == CreationThrew(ConfigurationError(MissingStore))
    ensures options.Some? && Truthy(options.value.dynamicConfig) ==> r == Created(StrategyState(options.value, None))
    ensures options.Some? && !Truthy(options.value.dynamicConfig) ==>
      (r.Created? <==> CheckOptions(options.value, load).failure.None?)
    ensures r.Created? && r.state.passwordless.Some? ==> Normalised(r.state.options)
  {
    var o := if options.Some? then options.value else EmptyOptions;
    if Truthy(o.dynamicConfig) then Created(StrategyState(o, None))
    else
      var init := InitPasswordless(o, load);
      match init.instance
      case Failure(e) => CreationThrew(e)
      case Success(p) => Created(StrategyState(init.options, Some(p)))
  }

  // ---------------------------------------------------------------------
  // Per-call options
  // ---------------------------------------------------------------------

  /** The options passed to one `authenticate` call; `None` where the key is absent. */
  datatype CallOptions = CallOptions(
    store: Option<StoreValue>,
    delivery: Option<DeliveryValue>,
    access: Option<AccessValue>,
    userField: Option<Option<string>>,
    tokenField: Option<Option<string>>,
    uidField: Option<Option<string>>,
    allowTokenReuse: Option<JsValue>,
    tokenLifeTime: Option<JsValue>,
    maxTokenLength: Option<JsValue>,
    tokenAlgorithm: Option<JsValue>,
    dynamicConfig: Option<JsValue>)

  const NoOverrides: CallOptions := CallOptions(None, None, None, None, None, None, None, None, None, None, None)

  function Pick<T>(given: Option<T>, current: T): T {
    if given.Some? then given.value else current
  }

  /** `_.extend(this.options, options)`: every key the call supplies replaces the stored value. */
  function Merge(o: Options, c: CallOptions): Options {
    Options(
      Pick(c.store, o.store), Pick(c.delivery, o.delivery), Pick(c.access, o.access),
      Pick(c.userField, o.userField), Pick(c.tokenField, o.tokenField), Pick(c.uidField, o.uidField),
      Pick(c.allowTokenReuse, o.allowTokenReuse), Pick(c.tokenLifeTime, o.tokenLifeTime),
      Pick(c.maxTokenLength, o.maxTokenLength), Pick(c.tokenAlgorithm, o.tokenAlgorithm),
      Pick(c.dynamicConfig, o.dynamicConfig))
  }

  /** Applying the same call options twice is applying them once; applying none changes nothing. */
  lemma MergeIdempotent(o: Options, c: CallOptions)
    ensures Merge(Merge(o, c), c) == Merge(o, c)
    ensures Merge(o, NoOverrides) == o
  {
  }

  // ---------------------------------------------------------------------
  // Request classification
  // ---------------------------------------------------------------------

  /** The query key a parameter is read from: the configured name when truthy, else the default. */
  function FieldName(field: Option<string>, default: string): (name: string)
    ensures Present(field) ==> name == field.value
    ensures !Present(field) ==> name == default
  {
    if Present(field) then field.value else default
  }

  /** `getParam(obj, field, defaultField)`. */
  function GetParam(query: map<string, string>, field: Option<string>, default: string): (v: Option<string>)
    ensures v.Some? <==> FieldName(field, default) in query
    ensures v.Some? ==> v.value == query[FieldName(field, default)]
  {
    var key := FieldName(field, default);
    if key in query then Some(query[key]) else None
  }

  datatype Branch = VerifyBranch(token: string, uid: string) | DeliveryBranch(user: string) | RejectBranch

  /** A token and a uid win over a user; a user alone asks for a token; anything else is rejected. */
  function Classify(query: map<string, string>, o: Options): (b: Branch)
    ensures
      var user := GetParam(query, o.userField, "user");
      var token := GetParam(query, o.tokenField, "token");
      var uid := GetParam(query, o.uidField, "uid");
      && (b.VerifyBranch? <==> Present(token) && Present(uid))
      && (b.VerifyBranch? ==> b.token == token.value && b.uid == uid.value)
      && (b.DeliveryBranch? <==> !(Present(token) && Present(uid)) && Present(user))
      && (b.DeliveryBranch? ==> b.user == user.value)
  {
    var user := GetParam(query, o.userField, "user");
    var token := GetParam(query, o.tokenField, "token");
    var uid := GetParam(query, o.uidField, "uid");
    if Present(token) && Present(uid) then VerifyBranch(token.value, uid.value)
    else if Present(user) then DeliveryBranch(user.value)
    else RejectBranch
  }

  /** When a token and a uid are given, the user parameter cannot change the branch taken. */
  lemma UserIgnoredWithTokenAndUid(query: map<string, string>, o: Options, user: string)
    requires FieldName(o.userField, "user") != FieldName(o.tokenField, "token")
    requires FieldName(o.userField, "user") != FieldName(o.uidField, "uid")
    requires Classify(query, o).VerifyBranch?
    ensures Classify(query[FieldName(o.userField, "user") := user], o) == Classify(query, o)
  {
    var q := query[FieldName(o.userField, "user") := user];
    assert GetParam(q, o.tokenField, "token") == GetParam(query, o.tokenField, "token");
    assert GetParam(q, o.uidField, "uid") == GetParam(query, o.uidField, "uid");
  }

  const RejectPrefix: string := "Could not authenticate! Please specify a user id for the specified delivery ("
  const RejectSuffix: string := ") or specify a valid token and uid!"

  /**
    The rejection message, built from the `delivery` of the call's own
    options (not the merged ones): an absent call options object, or an
    absent or null delivery in it, makes the property read throw.
   */
  function RejectMessage(per: Option<CallOptions>): (r: Result<string, Exception>)
    ensures per.None? ==> r == Failure(PropertyOfNothing("delivery"))
    ensures per.Some? ==> (r.Success? <==> per.value.delivery.Some? && !per.value.delivery.value.NoDelivery?)
    ensures r.Failure? && per.Some? ==> r.error == PropertyOfNothing("type")
    ensures r.Success? ==>
      var t := ToJsString(TypeOf(per.value.delivery.value));
      && |r.value| == |RejectPrefix| + |t| + |RejectSuffix|
      && r.value[..|RejectPrefix|] == RejectPrefix
      && r.value[|RejectPrefix|..|RejectPrefix| + |t|] == t
      && r.value[|RejectPrefix| + |t|..] == RejectSuffix
  {
    if per.None? then Failure(PropertyOfNothing("delivery"))
    else if per.value.delivery.None? || per.value.delivery.value.NoDelivery? then Failure(PropertyOfNothing("type"))
    else
      var t := ToJsString(TypeOf(per.value.delivery.value));
      var m := RejectPrefix + t + RejectSuffix;
      assert m[..|RejectPrefix|] == RejectPrefix;
      assert m[|RejectPrefix|..|RejectPrefix| + |t|] == t;
      Success(m)
  }

  // ---------------------------------------------------------------------
  // Outcomes
  // ---------------------------------------------------------------------

  /** The passport outcome a call reports. */
  datatype Signal = Succeeded(user: JsValue, info: JsValue) | Failed(info: JsValue) | Errored(err: JsValue) | Passed

  datatype Ending = Signalled(signal: Signal) | Threw(exception: Exception)

  /** Calls made to collaborators, in order. */
  datatype Effect =
    | AuthenticateToken(token: string, uid: string)
    | VerifyUser(uid: string)
    | InvalidateUser(uid: string)
    | RequestToken
    | AskAccess(user: JsValue)

  /** One strategy call: the collaborator calls it made and how it ended. */
  datatype Run = Run(effects: seq<Effect>, ending: Ending)

  predicate EndsInSuccess(run: Run) {
    run.ending.Signalled? && run.ending.signal.Succeeded?
  }

  /** The token store's answer to `authenticate(token, uid)`. */
  datatype StoreAnswer = StoreAnswer(error: JsValue, valid: JsValue)

  /** The application's verify callback answer. */
  datatype VerifyAnswer = VerifyAnswer(err: JsValue, user: JsValue, info: JsValue)

  /** An access callback answer. */
  datatype AccessAnswer = AccessAnswer(err: JsValue, user: JsValue)

  const InvalidCombination: string := "Invalid token and user id combination!"

  /**
    `verifyToken`. A store error throws a ReferenceError (the branch names
    an unbound `err`); `reuse` is the `allowTokenReuse` option read when the
    user has been verified. `verify` is the verify function's answer, or
    `None` when the strategy was constructed without a function there: the
    constructor stores it unchecked, so the call throws once a valid
    combination reaches it.
   */
  function VerifyToken(token: string, uid: string, reuse: JsValue, store: StoreAnswer, verify: Option<VerifyAnswer>): (run: Run)
    ensures |run.effects| >= 1 && run.effects[0] == AuthenticateToken(token, uid)
    ensures Truthy(store.error) ==> run == Run([AuthenticateToken(token, uid)], Threw(UnboundVariable("err")))
    ensures !Truthy(store.error) && !Truthy(store.valid) ==>
      run == Run([AuthenticateToken(token, uid)], Signalled(Errored(Str(InvalidCombination))))
    ensures !Truthy(store.error) && Truthy(store.valid) && verify.None? ==>
      run == Run([AuthenticateToken(token, uid)], Threw(NotCallable("verify")))
    ensures VerifyUser(uid) in run.effects <==> !Truthy(store.error) && Truthy(store.valid) && verify.Some?
    ensures VerifyUser(uid) in run.effects && Truthy(verify.value.err) ==> run.ending == Signalled(Errored(verify.value.err))
    ensures VerifyUser(uid) in run.effects && !Truthy(verify.value.err) && !Truthy(verify.value.user) ==>
      run.ending == Signalled(Failed(verify.value.info))
    ensures EndsInSuccess(run) <==>
      !Truthy(store.error) && Truthy(store.valid) && verify.Some? && !Truthy(verify.value.err) && Truthy(verify.value.user)
    ensures EndsInSuccess(run) ==> run.ending.signal == Succeeded(verify.value.user, verify.value.info)
    ensures InvalidateUser(uid) in run.effects <==> EndsInSuccess(run) && !Truthy(reuse)
    ensures InvalidateUser(uid) in run.effects ==>
      run.effects == [AuthenticateToken(token, uid), VerifyUser(uid), InvalidateUser(uid)]
  {
    var asked := [AuthenticateToken(token, uid)];
    if Truthy(store.error) then Run(asked, Threw(UnboundVariable("err")))
    else if !Truthy(store.valid) then Run(asked, Signalled(Errored(Str(InvalidCombination))))
    else if verify.None? then Run(asked, Threw(NotCallable("verify")))
    else
      var answer := verify.value;
      var verified := asked + [VerifyUser(uid)];
      if Truthy(answer.err) then Run(verified, Signalled(Errored(answer.err)))
      else if !Truthy(answer.user) then Run(verified, Signalled(Failed(answer.info)))
      else if !Truthy(reuse) then Run(verified + [InvalidateUser(uid)], Signalled(Succeeded(answer.user, answer.info)))
      else Run(verified, Signalled(Succeeded(answer.user, answer.info)))
  }

  const NotAllowed: string := "This user is not allowed to request a token!"

  /**
    The callback wrapped around the access predicate: a truthy user passes
    the answer on; otherwise the predicate's error is replaced.
   */
  function AccessAdapter(answer: AccessAnswer): (r: AccessAnswer)
    ensures Truthy(answer.user) ==> r == answer
    ensures !Truthy(answer.user) ==> r == AccessAnswer(Str(NotAllowed), Null)
    ensures Truthy(r.err) || Truthy(r.user)
  {
    if Truthy(answer.user) then answer else AccessAnswer(Str(NotAllowed), Null)
  }

  /** Calls the access option for a user; a non-function throws. */
  function AskAccessOption(access: AccessValue, user: JsValue, appAccess: (nat, JsValue) -> AccessAnswer): (r: Result<AccessAnswer, Exception>)
    ensures r.Failure? <==> !IsFunctionAccess(access)
    ensures access == IdentityAccess ==> r == Success(AccessAnswer(Null, user))
  {
    match access
    case NonFunctionAccess => Failure(NotCallable("access"))
    case IdentityAccess => Success(AccessAnswer(Null, user))
    case AppAccess(h) => Success(appAccess(h, user))
  }

  /** The completion callback of the token request. */
  function Completion(err: JsValue): (s: Signal)
    ensures Truthy(err) <==> s.Errored?
    ensures s.Errored? ==> s.err == err
    ensures !Truthy(err) ==> s == Passed
  {
    if Truthy(err) then Errored(err) else Passed
  }

  /**
    The passwordless library's token request as the strategy sees it: the
    user it extracted, whether it consults the access callback, and the
    error it completes with given the callback's answer (`None` when it did
    not consult it).
   */
  datatype TokenRequest = TokenRequest(requestedUser: JsValue, asksAccess: bool, complete: Option<AccessAnswer> -> JsValue)

  /**
    `useDelivery`. The access option is read from the current options when
    the library consults it.
   */
  function UseDelivery(access: AccessValue, appAccess: (nat, JsValue) -> AccessAnswer, request: TokenRequest): (run: Run)
    ensures |run.effects| >= 1 && run.effects[0] == RequestToken
    ensures !request.asksAccess ==>
      run == Run([RequestToken], Signalled(Completion(request.complete(None))))
    ensures request.asksAccess && !IsFunctionAccess(access) ==>
      run == Run([RequestToken, AskAccess(request.requestedUser)], Threw(NotCallable("access")))
    ensures request.asksAccess && IsFunctionAccess(access) ==>
      var answer := AskAccessOption(access, request.requestedUser, appAccess).value;
      run == Run([RequestToken, AskAccess(request.requestedUser)],
                 Signalled(Completion(request.complete(Some(AccessAdapter(answer))))))
    ensures !run.ending.Signalled? || run.ending.signal.Errored? || run.ending.signal.Passed?
  {
    if !request.asksAccess then Run([RequestToken], Signalled(Completion(request.complete(None))))
    else
      var effects := [RequestToken, AskAccess(request.requestedUser)];
      match AskAccessOption(access, request.requestedUser, appAccess)
      case Failure(e) => Run(effects, Threw(e))
      case Success(answer) => Run(effects, Signalled(Completion(request.complete(Some(AccessAdapter(answer))))))
  }

  /** A user refused by the access predicate never gets a token request through: its completion sees the refusal. */
  lemma RefusedUserSeesRefusal(access: AccessValue, appAccess: (nat, JsValue) -> AccessAnswer, request: TokenRequest)
    requires request.asksAccess && IsFunctionAccess(access)
    requires !Truthy(AskAccessOption(access, request.requestedUser, appAccess).value.user)
    ensures UseDelivery(access, appAccess, request).ending
         == Signalled(Completion(request.complete(Some(AccessAnswer(Str(NotAllowed), Null)))))
  {
  }

  /**
    Without an access function in the configuration, the identity
    predicate `checkOptions` installs lets every truthy requested user
    through with no error; a falsy user meets the refusal.
   */
  lemma DefaultAccessAdmitsTruthyUsers(
    o: Options, load: StoreObject -> LoadOutcome, appAccess: (nat, JsValue) -> AccessAnswer, request: TokenRequest)
    requires CheckOptions(o, load).failure.None? && !IsFunctionAccess(o.access) && request.asksAccess
    ensures var run := UseDelivery(CheckOptions(o, load).options.access, appAccess, request);
      && (Truthy(request.requestedUser) ==>
            run.ending == Signalled(Completion(request.complete(Some(AccessAnswer(Null, request.requestedUser))))))
      && (!Truthy(request.requestedUser) ==>
            run.ending == Signalled(Completion(request.complete(Some(AccessAnswer(Str(NotAllowed), Null))))))
  {
  }

  // ---------------------------------------------------------------------
  // authenticate
  // ---------------------------------------------------------------------

  /** Everything `authenticate` consults outside the strategy. */
  datatype Collaborators = Collaborators(
    load: StoreObject -> LoadOutcome,
    tokenStore: (string, string) -> StoreAnswer,
    verify: Option<string -> VerifyAnswer>,  // the constructor's `verify`; `None` when it is not a function
    appAccess: (nat, JsValue) -> AccessAnswer,
    tokenRequest: TokenRequest)

  /** What the verify function answers for a uid, when there is one to call. */
  function VerifyAnswerFor(verify: Option<string -> VerifyAnswer>, uid: string): Option<VerifyAnswer> {
    if verify.Some? then Some(verify.value(uid)) else None
  }

  datatype Outcome = Outcome(state: StrategyState, run: Run)

  /** The branch taken once the options are settled. */
  function Dispatch(s: StrategyState, req: Request, per: Option<CallOptions>, c: Collaborators): (run: Run)
    ensures Classify(req.query, s.options).RejectBranch? ==>
      && run.effects == []
      && (RejectMessage(per).Success? ==> run.ending == Signalled(Errored(Str(RejectMessage(per).value))))
      && (RejectMessage(per).Failure? ==> run.ending == Threw(RejectMessage(per).error))
    ensures Classify(req.query, s.options).VerifyBranch? && s.passwordless.Some? ==>
      var b := Classify(req.query, s.options);
      run == VerifyToken(b.token, b.uid, s.options.allowTokenReuse, c.tokenStore(b.token, b.uid), VerifyAnswerFor(c.verify, b.uid))
    ensures Classify(req.query, s.options).DeliveryBranch? && s.passwordless.Some? ==>
      run == UseDelivery(s.options.access, c.appAccess, c.tokenRequest)
    ensures !Classify(req.query, s.options).RejectBranch? && s.passwordless.None? ==>
      run.effects == [] && run.ending.Threw? && run.ending.exception.PropertyOfNothing?
  {
    match Classify(req.query, s.options)
    case VerifyBranch(token, uid) =>
      if s.passwordless.None? then Run([], Threw(PropertyOfNothing("_tokenStore")))
      else VerifyToken(token, uid, s.options.allowTokenReuse, c.tokenStore(token, uid), VerifyAnswerFor(c.verify, uid))
    case DeliveryBranch(_) =>
      if s.passwordless.None? then Run([], Threw(PropertyOfNothing("requestToken")))
      else UseDelivery(s.options.access, c.appAccess, c.tokenRequest)
    case RejectBranch =>
      match RejectMessage(per)
      case Success(m) => Run([], Signalled(Errored(Str(m))))
      case Failure(e) => Run([], Threw(e))
  }

  /**
    `authenticate`: merge the call's options into the strategy's for good,
    re-initialise in dynamic mode, then dispatch on the request. Passport
    runs each request on a fresh object whose prototype is the strategy, so
    the instance a dynamic call assigns to `this.passwordless` serves that
    request only; the options object, merged and checked in place, is the
    strategy's own and keeps every change.
   */
  function Authenticate(s: StrategyState, req: Request, per: Option<CallOptions>, c: Collaborators): (r: Outcome)
    ensures r.state.passwordless == s.passwordless
    ensures var merged := if per.Some? then Merge(s.options, per.value) else s.options;
      && SameSettings(r.state.options, merged)
      && (!Truthy(merged.dynamicConfig) ==>
            r == Outcome(StrategyState(merged, s.passwordless), Dispatch(r.state, req, per, c)))
      && (Truthy(merged.dynamicConfig) ==> r.state.options == CheckOptions(merged, c.load).options)
      && (Truthy(merged.dynamicConfig) && CheckOptions(merged, c.load).failure.Some? ==>
            r.run == Run([], Threw(ConfigurationError(CheckOptions(merged, c.load).failure.value))))
      && (Truthy(merged.dynamicConfig) && CheckOptions(merged, c.load).failure.None? ==>
            r.run == Dispatch(StrategyState(r.state.options, Some(InitPasswordless(merged, c.load).instance.value)), req, per, c))
  {
    var merged := if per.Some? then Merge(s.options, per.value) else s.options;
    if Truthy(merged.dynamicConfig) then
      var init := InitPasswordless(merged, c.load);
      var kept := StrategyState(init.options, s.passwordless);
      match init.instance
      case Failure(e) => Outcome(kept, Run([], Threw(e)))
      case Success(p) => Outcome(kept, Dispatch(StrategyState(init.options, Some(p)), req, per, c))
    else
      var s1 := StrategyState(merged, s.passwordless);
      Outcome(s1, Dispatch(s1, req, per, c))
  }

  /**
    The instance a dynamic call creates does not outlive it: a strategy
    built in dynamic mode has none afterwards, so a later call that turns
    dynamic mode off and presents a token and uid throws reading the token
    store, before any collaborator call.
   */
  lemma DynamicInstanceDiesWithCall(
    s: StrategyState, req: Request, c: Collaborators, req2: Request, per2: CallOptions, c2: Collaborators)
    requires s.passwordless.None?
    requires var merged2 := Merge(Authenticate(s, req, None, c).state.options, per2);
      !Truthy(merged2.dynamicConfig) && Classify(req2.query, merged2).VerifyBranch?
    ensures Authenticate(s, req, None, c).state.passwordless.None?
    ensures Authenticate(Authenticate(s, req, None, c).state, req2, Some(per2), c2).run
         == Run([], Threw(PropertyOfNothing("_tokenStore")))
  {
  }

  /**
    Per-call options stay merged: a later call that supplies none sees the
    settings of the earlier one.
   */
  lemma MergedOptionsPersist(s: StrategyState, req: Request, c0: CallOptions, req2: Request, c: Collaborators)
    ensures var first := Authenticate(s, req, Some(c0), c);
      SameSettings(Authenticate(first.state, req2, Some(NoOverrides), c).state.options, Merge(s.options, c0))
  {
    var first := Authenticate(s, req, Some(c0), c);
    MergeIdempotent(first.state.options, c0);
    var second := Authenticate(first.state, req2, Some(NoOverrides), c);
    assert Merge(first.state.options, NoOverrides) == first.state.options;
  }

  /**
    In dynamic mode the re-initialisation of every call finds the options
    already normalised after a successful one: the store is not loaded again
    and the same store, delivery and access stay in place.
   */
  lemma DynamicModeKeepsStore(s: StrategyState, req: Request, c: Collaborators, req2: Request, c2: Collaborators)
    requires Truthy(s.options.dynamicConfig)
    requires CheckOptions(s.options, c.load).failure.None?
    ensures var first := Authenticate(s, req, None, c);
      Authenticate(first.state, req2, None, c2).state.options == first.state.options
  {
    var first := Authenticate(s, req, None, c);
    CheckOptionsIdempotent(s.options, c.load, c2.load);
  }

  // ---------------------------------------------------------------------
  // The registry lookup as written
  // ---------------------------------------------------------------------

  /** Names every plain object inherits from `Object.prototype`, each a truthy value. */
  const InheritedNames: seq<string> := [
    "constructor", "hasOwnProperty", "isPrototypeOf", "propertyIsEnumerable",
    "toLocaleString", "toString", "valueOf",
    "__defineGetter__", "__defineSetter__", "__lookupGetter__", "__lookupSetter__", "__proto__"]

  /**
    The delivery guard as JavaScript evaluates it: `deliveries[type]` is a
    property read on a plain object, so an inherited name passes it too.
   */
  predicate AcceptsDeliveryAsWritten(d: DeliveryValue) {
    match d
    case NoDelivery => false
    case Callable(_) => true
    case Described(t, _) => Present(t) && (IsRegistered(t.value) || t.value in InheritedNames)
    case Primitive(_) => false
    case Boolean(_) => false
  }

  /** A descriptor of type "toString" passes the guard as written but names no delivery. */
  lemma InheritedNamePassesGuard(cfg: EmailConfig)
    ensures AcceptsDeliveryAsWritten(Described(Some("toString"), cfg))
    ensures !AcceptsDelivery(Described(Some("toString"), cfg))
  {
    assert InheritedNames[5] == "toString";
    assert RegistryKeys[0] != "toString";
  }

  /** The own-key guard accepts exactly the deliveries that resolve to a delivery function. */
  lemma AcceptedDeliveriesResolve(d: DeliveryValue)
    ensures AcceptsDelivery(d) <==> d.Callable? || (d.Described? && Present(d.deliveryType) && d.deliveryType.value in RegistryKeys)
    ensures AcceptsDelivery(d) ==> AcceptsDeliveryAsWritten(d)
  {
  }

  /** A descriptor whose type passes the guard as written only through an inherited name. */
  predicate InheritedDelivery(d: DeliveryValue) {
    d.Described? && Present(d.deliveryType) && !IsRegistered(d.deliveryType.value) && d.deliveryType.value in InheritedNames
  }

  /** An object with neither `type` nor `config`, such as the registry table itself. */
  const UntypedObject: DeliveryValue := Described(None, EmailConfig(None, None))

  /**
    `deliveries[name](descriptor)` for an inherited name: the
    `Object.prototype` method runs with the registry as `this` and the
    descriptor as its argument. Only `constructor` (`Object(descriptor)`)
    gives the descriptor back; every other result fails the guard when it
    is checked again.
   */
  function CallInherited(name: string, d: DeliveryValue): (r: Result<DeliveryValue, Exception>)
    requires d.Described? && d.deliveryType == Some(name) && name in InheritedNames && !IsRegistered(name)
    ensures r == Success(d) <==> name == "constructor"
    ensures r.Success? && name != "constructor" ==> !AcceptsDeliveryAsWritten(r.value)
    ensures r.Failure? <==> name in ["__defineGetter__", "__defineSetter__", "__proto__"]
  {
    if name == "constructor" then Success(d)
    else if name == "toString" || name == "toLocaleString" then Success(Primitive("[object Object]"))
    else if name == "valueOf" then Success(UntypedObject)
    else if name == "__lookupGetter__" || name == "__lookupSetter__" then Success(NoDelivery)
    else if name == "__defineGetter__" || name == "__defineSetter__" then Failure(NotCallable("getter"))
    else if name == "__proto__" then Failure(NotCallable("deliveries[type]"))
    else Success(Boolean(false))   // hasOwnProperty, isPrototypeOf, propertyIsEnumerable
  }

  /** What `checkOptions` as written leaves behind: the options object, and the exception it threw, if any. */
  datatype CheckedAsWritten = CheckedAsWritten(options: Options, thrown: Option<Exception>)

  /** The own-key result, seen as a thrown exception. */
  function AsThrown(c: Checked): CheckedAsWritten {
    CheckedAsWritten(c.options, if c.failure.None? then None else Some(ConfigurationError(c.failure.value)))
  }

  /**
    `checkOptions` with the delivery guard and lookup as written: an
    inherited name passes the guard and the delivery becomes whatever the
    inherited method returns, or the call throws the method's TypeError.
   */
  function CheckOptionsAsWritten(o: Options, load: StoreObject -> LoadOutcome): (r: CheckedAsWritten)
    ensures SameSettings(r.options, o)
    ensures !InheritedDelivery(o.delivery) ==> r == AsThrown(CheckOptions(o, load))
    ensures InheritedDelivery(o.delivery) && CheckStore(o.store, load).Success? ==>
      var store := CheckStore(o.store, load).value;
      var call := CallInherited(o.delivery.deliveryType.value, o.delivery);
      && (call.Failure? ==> r == CheckedAsWritten(o.(store := store), Some(call.error)))
      && (call.Success? ==>
            r == CheckedAsWritten(o.(store := store, delivery := call.value, access := NormaliseAccess(o.access)), None))
  {
    if !InheritedDelivery(o.delivery) then
      AsThrown(CheckOptions(o, load))
    else
      match CheckStore(o.store, load)
      case Failure(e) => CheckedAsWritten(o, Some(ConfigurationError(e)))
      case Success(store) =>
        match CallInherited(o.delivery.deliveryType.value, o.delivery)
        case Failure(ex) => CheckedAsWritten(o.(store := store), Some(ex))
        case Success(v) => CheckedAsWritten(o.(store := store, delivery := v, access := NormaliseAccess(o.access)), None)
  }

  /**
    As written, re-running `checkOptions` on its own successful output
    changes nothing exactly when the delivery did not come through an
    inherited name other than `constructor`.
   */
  lemma CheckOptionsAsWrittenIdempotentIff(o: Options, load: StoreObject -> LoadOutcome, reload: StoreObject -> LoadOutcome)
    requires CheckOptionsAsWritten(o, load).thrown.None?
    ensures var first := CheckOptionsAsWritten(o, load);
      (CheckOptionsAsWritten(first.options, reload) == first)
      <==> (!InheritedDelivery(o.delivery) || o.delivery.deliveryType.value == "constructor")
  {
  }

  /**
    A `toString` descriptor: the own-key guard refuses it at once, while
    the guard as written accepts it, installs the string `[object Object]`
    as the delivery, and the re-run that dynamic mode performs then throws
    the invalid-delivery error.
   */
  lemma IdempotenceBreaksAsWritten(o: Options, load: StoreObject -> LoadOutcome, reload: StoreObject -> LoadOutcome, cfg: EmailConfig)
    requires CheckStore(o.store, load).Success? && o.delivery == Described(Some("toString"), cfg)
    ensures CheckOptions(o, load).failure == Some(InvalidDelivery)
    ensures var first := CheckOptionsAsWritten(o, load);
      && first.thrown.None?
      && first.options.delivery == Primitive("[object Object]")
      && CheckOptionsAsWritten(first.options, reload).thrown == Some(ConfigurationError(InvalidDelivery))
  {
  }
}

=== FILE: token_store.dfy ===
/**
  A reference token store, the partner of `Strategy.VerifyToken`: the
  store's contract as the strategy relies on it. `authenticate` answers
  whether the token is among the user's valid tokens, and `invalidateUser`
  drops every token of that user.
 */
module TokenStoreContract {
  import opened Wrappers
  import opened JsValues
  import opened Strategy

  /** Valid tokens per user id. */
  type Tokens = map<string, set<string>>

  function Answer(t: Tokens, token: string, uid: string): (a: StoreAnswer)
    ensures !Truthy(a.error)
    ensures Truthy(a.valid) <==> uid in t && token in t[uid]
  {
    StoreAnswer(Null, Bool(uid in t && token in t[uid]))
  }

  /** The store after one collaborator call. */
  function Step(t: Tokens, e: Effect): Tokens {
    if e.InvalidateUser? then t - {e.uid} else t
  }

  /** The store after the calls of a run, in order. */
  function Apply(t: Tokens, effects: seq<Effect>): Tokens
    decreases |effects|
  {
    if |effects| == 0 then t else Apply(Step(t, effects[0]), effects[1..])
  }

  /** Only invalidations change the store. */
  lemma {:induction false} ApplyWithoutInvalidation(t: Tokens, effects: seq<Effect>)
    requires forall i :: 0 <= i < |effects| ==> !effects[i].InvalidateUser?
    ensures Apply(t, effects) == t
    decreases |effects|
  {
    if |effects| > 0 {
      ApplyWithoutInvalidation(t, effects[1..]);
    }
  }

  /** A run that invalidates the user removes exactly that user's tokens. */
  lemma ApplyVerifiedRun(t: Tokens, token: string, uid: string)
    ensures Apply(t, [AuthenticateToken(token, uid), VerifyUser(uid), InvalidateUser(uid)]) == t - {uid}
  {
    var effects := [AuthenticateToken(token, uid), VerifyUser(uid), InvalidateUser(uid)];
    var last := [InvalidateUser(uid)];
    assert last[1..] == [];
    assert Apply(t, last) == t - {uid};
    assert effects[1..][1..] == last;
    assert Apply(t, effects[1..]) == Apply(t, last);
    assert Apply(t, effects) == Apply(t, effects[1..]);
  }

  /**
    Without token reuse, a successful verification consumes the token: the
    same token and uid presented again meet the invalid-combination error,
    and the verify callback is not consulted.
   */
  lemma TokenIsSingleUse(t: Tokens, token: string, uid: string, reuse: JsValue, v: Option<VerifyAnswer>, reuse2: JsValue, v2: Option<VerifyAnswer>)
    requires !Truthy(reuse)
    requires EndsInSuccess(VerifyToken(token, uid, reuse, Answer(t, token, uid), v))
    ensures var after := Apply(t, VerifyToken(token, uid, reuse, Answer(t, token, uid), v).effects);
      VerifyToken(token, uid, reuse2, Answer(after, token, uid), v2)
        == Run([AuthenticateToken(token, uid)], Signalled(Errored(Str(InvalidCombination))))
  {
    ApplyVerifiedRun(t, token, uid);
  }

  /** With token reuse allowed, a successful verification leaves the store as it was, so it succeeds again. */
  lemma TokenReusable(t: Tokens, token: string, uid: string, reuse: JsValue, v: Option<VerifyAnswer>)
    requires Truthy(reuse)
    requires EndsInSuccess(VerifyToken(token, uid, reuse, Answer(t, token, uid), v))
    ensures var run := VerifyToken(token, uid, reuse, Answer(t, token, uid), v);
      Apply(t, run.effects) == t
      && VerifyToken(token, uid, reuse, Answer(Apply(t, run.effects), token, uid), v) == run
  {
    var run := VerifyToken(token, uid, reuse, Answer(t, token, uid), v);
    assert InvalidateUser(uid) !in run.effects;
    assert run.effects == [AuthenticateToken(token, uid), VerifyUser(uid)];
    ApplyWithoutInvalidation(t, run.effects);
  }

  /** The failure paths of a verification leave the store untouched. */
  lemma FailedVerificationKeepsStore(t: Tokens, token: string, uid: string, reuse: JsValue, v: Option<VerifyAnswer>)
    requires !EndsInSuccess(VerifyToken(token, uid, reuse, Answer(t, token, uid), v))
    ensures Apply(t, VerifyToken(token, uid, reuse, Answer(t, token, uid), v).effects) == t
  {
    var run := VerifyToken(token, uid, reuse, Answer(t, token, uid), v);
    assert run.effects == [AuthenticateToken(token, uid)] || run.effects == [AuthenticateToken(token, uid), VerifyUser(uid)];
    ApplyWithoutInvalidation(t, run.effects);
  }
}

=== FILE: url.dfy ===
/**
  The URL helper of the strategy (lib/lib.js).

  `splitUrl` runs the unanchored regular expression

      (?:([fh]t?tps?):\/\/)?(?:www.)?([^:\/]*)(?::([0-9]+))?(?:\/(.*))?

  with `exec`. Every part of the pattern is optional or may match the empty
  string, so the attempt at index 0 can never fail, and because nothing after
  a group can fail, JavaScript's backtracking settles on the first choice of
  every group: each optional group is taken whenever it can match and each
  starred class runs as far as it can. `Parse` is that choice written as a
  deterministic left-to-right scan; `IsRegexMatch` is an independent,
  declarative statement of the same semantics, and `ParseUnique` shows that
  the scan produces the only match it allows.
 */
module Url {
  import opened Wrappers
  import opened JsValues

  /** Characters the regular-expression dot refuses. */
  predicate IsLineTerminator(c: char) {
    c == '\n' || c == '\r' || c == '\U{2028}' || c == '\U{2029}'
  }

  /** `[^:\/]` */
  predicate IsHostChar(c: char) {
    c != ':' && c != '/'
  }

  /** `[0-9]` */
  predicate IsDigit(c: char) {
    '0' <= c <= '9'
  }

  /** `.` (no `s` flag) */
  predicate IsPathChar(c: char) {
    !IsLineTerminator(c)
  }

  /** `[fh]t?tps?`: one of ftp, ftps, fttp, fttps, htp, htps, http, https (case-sensitive). */
  predicate IsSchemeWord(w: string) {
    && 3 <= |w| <= 5
    && (w[0] == 'f' || w[0] == 'h')
    && w[1] == 't'
    && (if |w| == 3 then w[2] == 'p'
        else if |w| == 4 then (w[2] == 'p' && w[3] == 's') || (w[2] == 't' && w[3] == 'p')
        else w[2] == 't' && w[3] == 'p' && w[4] == 's')
  }

  /** `:\/\/` at position `i`. */
  predicate SeparatorAt(url: string, i: nat) {
    i + 3 <= |url| && url[i] == ':' && url[i + 1] == '/' && url[i + 2] == '/'
  }

  /** The input begins with scheme word `w` followed by `://`. */
  predicate StartsWithScheme(url: string, w: string) {
    IsSchemeWord(w) && |w| <= |url| && url[..|w|] == w && SeparatorAt(url, |w|)
  }

  /** `www.` can match at position `i`: three `w`s and any non-terminator. */
  predicate WwwAt(url: string, i: nat) {
    i + 4 <= |url| && url[i] == 'w' && url[i + 1] == 'w' && url[i + 2] == 'w' && !IsLineTerminator(url[i + 3])
  }

  /** `:([0-9]+)` can match at position `i`. */
  predicate PortStartsAt(url: string, i: nat) {
    i + 1 < |url| && url[i] == ':' && IsDigit(url[i + 1])
  }

  /** `\/(.*)` can match at position `i`. */
  predicate PathStartsAt(url: string, i: nat) {
    i < |url| && url[i] == '/'
  }

  /** `s[start..end]` is a run of `p`-characters that cannot be extended. */
  predicate MaximalRun(s: string, start: nat, end: nat, p: char -> bool) {
    && start <= end <= |s|
    && (forall i :: start <= i < end ==> p(s[i]))
    && (end < |s| ==> !p(s[end]))
  }

  /** Where a greedy `p*` starting at `start` stops. */
  function RunEnd(s: string, start: nat, p: char -> bool): (end: nat)
    requires start <= |s|
    ensures MaximalRun(s, start, end, p)
    decreases |s| - start
  {
    if start == |s| || !p(s[start]) then start else RunEnd(s, start + 1, p)
  }

  lemma MaximalRunUnique(s: string, start: nat, e1: nat, e2: nat, p: char -> bool)
    requires MaximalRun(s, start, e1, p) && MaximalRun(s, start, e2, p)
    ensures e1 == e2
  {
  }

  /** The capture groups of a match, plus the text the `www.` group consumed. */
  datatype UrlParts = UrlParts(
    scheme: Option<string>,
    www: string,
    host: string,
    port: Option<string>,
    path: Option<string>)

  function PortText(port: Option<string>): string {
    match port
    case None => ""
    case Some(d) => ":" + d
  }

  /** Offsets at which the host starts and at which the host, the port and the whole match end. */
  function HostStart(p: UrlParts): nat {
    (match p.scheme case None => 0 case Some(w) => |w| + 3) + |p.www|
  }

  function HostEnd(p: UrlParts): nat {
    HostStart(p) + |p.host|
  }

  function PortEnd(p: UrlParts): nat {
    HostEnd(p) + (match p.port case None => 0 case Some(d) => |d| + 1)
  }

  function MatchLength(p: UrlParts): nat {
    PortEnd(p) + (match p.path case None => 0 case Some(r) => |r| + 1)
  }

  /**
    The regular expression's match at index 0, stated group by group: each
    optional group is taken exactly when it can match where it stands, and
    each starred class runs as far as it can.
   */
  ghost predicate IsRegexMatch(url: string, p: UrlParts) {
    && MatchLength(p) <= |url|
    && SchemeGroup(url, p)
    && WwwGroup(url, p)
    && HostGroup(url, p)
    && PortGroup(url, p)
    && PathGroup(url, p)
  }

  /** `(?:([fh]t?tps?):\/\/)?` is taken exactly when a scheme word and `://` open the input. */
  ghost predicate SchemeGroup(url: string, p: UrlParts) {
    match p.scheme
    case Some(w) => StartsWithScheme(url, w)
    case None => forall w :: !StartsWithScheme(url, w)
  }

  /** `(?:www.)?` is taken exactly when it can match right after the scheme. */
  predicate WwwGroup(url: string, p: UrlParts) {
    var a := HostStart(p) - |p.www|;
    if p.www == "" then !WwwAt(url, a)
    else |p.www| == 4 && WwwAt(url, a) && p.www == url[a..a + 4]
  }

  /** `([^:\/]*)` runs as far as it can. */
  predicate HostGroup(url: string, p: UrlParts) {
    HostEnd(p) <= |url| && p.host == url[HostStart(p)..HostEnd(p)] && MaximalRun(url, HostStart(p), HostEnd(p), IsHostChar)
  }

  /** `(?::([0-9]+))?` is taken exactly when a colon and a digit follow the host; the digits run as far as they can. */
  predicate PortGroup(url: string, p: UrlParts) {
    var c := HostEnd(p);
    match p.port
    case Some(digits) => PortStartsAt(url, c) && PortEnd(p) <= |url| && digits == url[c + 1..PortEnd(p)] && MaximalRun(url, c + 1, PortEnd(p), IsDigit)
    case None => !PortStartsAt(url, c)
  }

  /** `(?:\/(.*))?` is taken exactly when a slash follows; the path runs to the first line terminator. */
  predicate PathGroup(url: string, p: UrlParts) {
    var d := PortEnd(p);
    match p.path
    case Some(rest) => PathStartsAt(url, d) && MatchLength(p) <= |url| && rest == url[d + 1..MatchLength(p)] && MaximalRun(url, d + 1, MatchLength(p), IsPathChar)
    case None => !PathStartsAt(url, d)
  }

  /** At most one scheme word can be followed by `://` at the start of a string. */
  lemma SchemeWordUnique(url: string, w1: string, w2: string)
    requires StartsWithScheme(url, w1) && StartsWithScheme(url, w2)
    ensures w1 == w2
  {
  }

  /** The scheme group `([fh]t?tps?):\/\/`, tried at the start of the input. */
  function LeadingScheme(url: string): (r: Option<string>)
    ensures r.Some? ==> StartsWithScheme(url, r.value)
    ensures r.None? ==> forall w :: !StartsWithScheme(url, w)
  {
    if |url| >= 3 && IsSchemeWord(url[..3]) && SeparatorAt(url, 3) then Some(url[..3])
    else if |url| >= 4 && IsSchemeWord(url[..4]) && SeparatorAt(url, 4) then Some(url[..4])
    else if |url| >= 5 && IsSchemeWord(url[..5]) && SeparatorAt(url, 5) then Some(url[..5])
    else
      assert forall w :: !StartsWithScheme(url, w) by {
        forall w
          ensures !StartsWithScheme(url, w)
        {
          if StartsWithScheme(url, w) {
            SchemeFits(url, w);
          }
        }
      }
      None
  }

  lemma SchemeFits(url: string, w: string)
    requires StartsWithScheme(url, w)
    ensures 3 <= |w| <= 5 && IsSchemeWord(url[..|w|]) && SeparatorAt(url, |w|)
  {
  }

  /** The match `exec` finds at index 0, computed group by group. */
  function Parse(url: string): (p: UrlParts)
  {
    var scheme := LeadingScheme(url);
    var a := match scheme case None => 0 case Some(w) => |w| + 3;
    var www := if WwwAt(url, a) then url[a..a + 4] else "";
    var b := a + |www|;
    var c := RunEnd(url, b, IsHostChar);
    var port := if PortStartsAt(url, c) then Some(url[c + 1..RunEnd(url, c + 1, IsDigit)]) else None;
    var d := match port case None => c case Some(digits) => c + 1 + |digits|;
    var path := if PathStartsAt(url, d) then Some(url[d + 1..RunEnd(url, d + 1, IsPathChar)]) else None;
    UrlParts(scheme, www, url[b..c], port, path)
  }

  /** The scan meets the declarative statement of the regular expression's match. */
  lemma ParseIsRegexMatch(url: string)
    ensures IsRegexMatch(url, Parse(url))
  {
    ParseLeadingGroups(url);
    ParseTrailingGroups(url);
  }

  lemma ParseLeadingGroups(url: string)
    ensures SchemeGroup(url, Parse(url)) && WwwGroup(url, Parse(url)) && HostGroup(url, Parse(url))
  {
  }

  lemma ParseTrailingGroups(url: string)
    ensures PortGroup(url, Parse(url)) && PathGroup(url, Parse(url)) && MatchLength(Parse(url)) <= |url|
  {
    var p := Parse(url);
    TrailingGroupsAfterHost(url, p, RunEnd(url, HostStart(p), IsHostChar));
  }

  /** Port and path scanned greedily after a host that ends at `c`. */
  lemma TrailingGroupsAfterHost(url: string, p: UrlParts, c: nat)
    requires HostEnd(p) == c <= |url|
    requires p.port == if PortStartsAt(url, c) then Some(url[c + 1..RunEnd(url, c + 1, IsDigit)]) else None
    requires var d := PortEnd(p);
      d <= |url| && p.path == if PathStartsAt(url, d) then Some(url[d + 1..RunEnd(url, d + 1, IsPathChar)]) else None
    ensures PortGroup(url, p) && PathGroup(url, p) && MatchLength(p) <= |url|
  {
  }

  /** The regular expression admits exactly one match at index 0: the one `Parse` computes. */
  lemma ParseUnique(url: string, p: UrlParts)
    requires IsRegexMatch(url, p)
    ensures p == Parse(url)
  {
    ParseIsRegexMatch(url);
    RegexMatchUnique(url, p, Parse(url));
  }

  lemma RegexMatchUnique(url: string, p: UrlParts, q: UrlParts)
    requires IsRegexMatch(url, p) && IsRegexMatch(url, q)
    ensures p == q
  {
    SchemeGroupUnique(url, p, q);
    assert p.www == q.www;
    MaximalRunUnique(url, HostStart(p), HostEnd(p), HostEnd(q), IsHostChar);
    PortGroupUnique(url, p, q);
    PathGroupUnique(url, p, q);
  }

  lemma SchemeGroupUnique(url: string, p: UrlParts, q: UrlParts)
    requires SchemeGroup(url, p) && SchemeGroup(url, q)
    ensures p.scheme == q.scheme
  {
    if p.scheme.Some? && q.scheme.Some? {
      SchemeWordUnique(url, p.scheme.value, q.scheme.value);
    }
  }

  lemma PortGroupUnique(url: string, p: UrlParts, q: UrlParts)
    requires PortGroup(url, p) && PortGroup(url, q) && HostEnd(p) == HostEnd(q)
    ensures p.port == q.port && PortEnd(p) == PortEnd(q)
  {
    if p.port.Some? {
      MaximalRunUnique(url, HostEnd(p) + 1, PortEnd(p), PortEnd(q), IsDigit);
    }
  }

  lemma PathGroupUnique(url: string, p: UrlParts, q: UrlParts)
    requires PathGroup(url, p) && PathGroup(url, q) && PortEnd(p) == PortEnd(q)
    ensures p.path == q.path
  {
    if p.path.Some? {
      MaximalRunUnique(url, PortEnd(p) + 1, MatchLength(p), MatchLength(q), IsPathChar);
    }
  }

  /**
    `splitUrl(url)`: the array `exec` returns, `undefined` (`None`) for a
    group that did not take part: [match, scheme, host, port, path].
   */
  function SplitUrl(url: string): (slots: seq<Option<string>>)
    ensures |slots| == 5
    ensures slots[0].Some? && slots[0].value <= url
    ensures slots[2].Some?
    ensures var p := Parse(url);
      slots[0].value == url[..MatchLength(p)] && slots[1..] == [p.scheme, Some(p.host), p.port, p.path]
  {
    var p := Parse(url);
    [Some(url[..MatchLength(p)]), p.scheme, Some(p.host), p.port, p.path]
  }

  /** `scheme://host[:port]` rebuilt from a match, `undefined` standing in for a missing scheme. */
  function Origin(p: UrlParts): string {
    ToJsString(p.scheme) + "://" + p.host + PortText(p.port)
  }

  /**
    `getBaseUrl(url)`. The `return url` branch is kept as written; the first
    postcondition says it is never taken.
   */
  function GetBaseUrl(url: string): (base: string)
    ensures base == Origin(Parse(url))
    ensures Parse(url).scheme.None? <==> "undefined://" <= base
  {
    var slots := SplitUrl(url);
    var base := if |slots| > 3 then
        ToJsString(slots[1]) + "://" + ToJsString(slots[2]) + (if Present(slots[3]) then ":" + slots[3].value else "")
      else
        url;
    var p := Parse(url);
    ParseIsRegexMatch(url);
    OriginFacts(url, p);
    base
  }

  lemma OriginFacts(url: string, p: UrlParts)
    requires IsRegexMatch(url, p)
    ensures p.port.Some? ==> p.port.value != ""
    ensures p.scheme.None? <==> "undefined://" <= Origin(p)
  {
    if p.scheme.Some? {
      assert Origin(p)[0] == p.scheme.value[0] != 'u';
    } else {
      assert Origin(p) == "undefined://" + p.host + PortText(p.port);
    }
  }

  /** With a scheme and no `www.` prefix, the base is the text the match consumed up to the port. */
  lemma BaseIsPrefix(url: string)
    requires Parse(url).scheme.Some? && Parse(url).www == ""
    ensures GetBaseUrl(url) == url[..PortEnd(Parse(url))]
  {
    ParseIsRegexMatch(url);
    PrefixOfMatch(url, Parse(url));
  }

  lemma PrefixOfMatch(url: string, p: UrlParts)
    requires IsRegexMatch(url, p) && p.scheme.Some? && p.www == ""
    ensures Origin(p) == url[..PortEnd(p)]
  {
    var w := p.scheme.value;
    var a := |w| + 3;
    var c := HostEnd(p);
    var d := PortEnd(p);
    assert url[..a] == w + "://";
    assert url[a..c] == p.host;
    assert url[c..d] == PortText(p.port) by {
      if p.port.Some? {
        assert url[c..d] == [url[c]] + url[c + 1..d];
      }
    }
    assert url[..c] == url[..a] + url[a..c];
    assert url[..d] == url[..c] + url[c..d];
  }
}

=== FILE: url_properties.dfy ===
/**
  Properties of `getBaseUrl` that relate several calls: when it is stable
  under re-application, and the inputs on which it is not.
 */
module UrlProperties {
  import opened Wrappers
  import opened JsValues
  import opened Url

  /**
    The host of a rebuilt origin is read back unchanged: it does not open
    with `www` followed by a character the `www.` group would swallow. A
    host that is exactly `www` is excluded too: when a port or a `/...` tail
    follows it, the `www.` group swallows it. The guard is sufficient, not
    necessary, since a bare `http://www` is stable.
   */
  predicate HostSurvivesReparse(host: string) {
    !(|host| >= 3 && host[0] == 'w' && host[1] == 'w' && host[2] == 'w' && (|host| == 3 || !IsLineTerminator(host[3])))
  }

  /** What the match guarantees about the characters of the host and the port. */
  lemma CapturedCharacters(url: string, p: UrlParts)
    requires IsRegexMatch(url, p)
    ensures forall i :: 0 <= i < |p.host| ==> IsHostChar(p.host[i])
    ensures p.port.Some? ==> p.port.value != "" && forall i :: 0 <= i < |p.port.value| ==> IsDigit(p.port.value[i])
  {
    var b := HostStart(p);
    assert forall i :: 0 <= i < |p.host| ==> p.host[i] == url[b + i];
    if p.port.Some? {
      var c := HostEnd(p);
      assert forall i :: 0 <= i < |p.port.value| ==> p.port.value[i] == url[c + 1 + i];
    }
  }

  /** The conditions under which an origin `w://host[:port]` followed by `tail` re-parses to itself. */
  predicate Reparsable(w: string, host: string, port: Option<string>, tail: string) {
    && IsSchemeWord(w)
    && HostSurvivesReparse(host)
    && (forall i :: 0 <= i < |host| ==> IsHostChar(host[i]))
    && (port.Some? ==> port.value != "" && forall i :: 0 <= i < |port.value| ==> IsDigit(port.value[i]))
    && (tail == "" || tail[0] == '/')
  }

  /** The text `w://host[:port]` + `tail`. */
  function Rebuilt(w: string, host: string, port: Option<string>, tail: string): string {
    (w + "://") + host + PortText(port) + tail
  }

  /** `w://` opens `u`. */
  predicate SchemeLaid(u: string, w: string) {
    |w| + 3 <= |u| && u[..|w|] == w && SeparatorAt(u, |w|)
  }

  /** `host` sits at `a`, followed by `:`, `/` or the end. */
  predicate HostLaid(u: string, a: nat, host: string) {
    && a + |host| <= |u|
    && u[a..a + |host|] == host
    && (a + |host| < |u| ==> u[a + |host|] == ':' || u[a + |host|] == '/')
  }

  /** `:digits` (or nothing) sits at `c`, followed by `/` or the end. */
  predicate PortLaid(u: string, c: nat, port: Option<string>) {
    match port
    case Some(digits) =>
      && c + 1 + |digits| <= |u| && u[c] == ':' && u[c + 1..c + 1 + |digits|] == digits
      && (c + 1 + |digits| < |u| ==> u[c + 1 + |digits|] == '/')
    case None => c < |u| ==> u[c] == '/'
  }

  /** `tail`, empty or opening with `/`, ends `u` from `d` on. */
  predicate TailLaid(u: string, d: nat, tail: string) {
    |u| == d + |tail| && (d < |u| ==> u[d] == '/')
  }

  /** Where the pieces of a rebuilt origin sit in `u`. */
  predicate Layout(u: string, w: string, host: string, port: Option<string>, tail: string) {
    var a := |w| + 3;
    var c := a + |host|;
    && SchemeLaid(u, w)
    && HostLaid(u, a, host)
    && PortLaid(u, c, port)
    && TailLaid(u, c + |PortText(port)|, tail)
  }

  /** The parts a re-parse of `u`, laid out as a rebuilt origin, is expected to produce. */
  function Expected(u: string, w: string, host: string, port: Option<string>, tail: string): UrlParts {
    var d := |w| + 3 + |host| + |PortText(port)|;
    var path := if tail == "" || |u| < d + 1 then None else Some(u[d + 1..RunEnd(u, d + 1, IsPathChar)]);
    UrlParts(Some(w), "", host, port, path)
  }

  lemma RebuiltLayout(w: string, host: string, port: Option<string>, tail: string)
    requires port.Some? ==> port.value != ""
    requires tail == "" || tail[0] == '/'
    ensures Layout(Rebuilt(w, host, port, tail), w, host, port, tail)
  {
    var rest := PortText(port) + tail;
    var u := Rebuilt(w, host, port, tail);
    var c := |w| + 3 + |host|;
    LayoutHead(w, host, rest);
    AppendAssoc((w + "://") + host, PortText(port), tail);
    assert u == (w + "://") + host + rest;
    LayoutAfterHost(u, c, port, tail);
    assert SchemeLaid(u, w);
    assert HostLaid(u, |w| + 3, host);
  }

  lemma LayoutAfterHost(u: string, c: nat, port: Option<string>, tail: string)
    requires port.Some? ==> port.value != ""
    requires tail == "" || tail[0] == '/'
    requires c <= |u| && u[c..] == PortText(port) + tail
    ensures c < |u| ==> u[c] == ':' || u[c] == '/'
    ensures PortLaid(u, c, port) && TailLaid(u, c + |PortText(port)|, tail)
  {
    LayoutRest(port, tail);
    var rest := u[c..];
    var n := |PortText(port)|;
    assert forall i :: c <= i < |u| ==> u[i] == rest[i - c];
    if port.Some? {
      assert u[c + 1..c + n] == rest[1..n];
    }
  }

  /** Where the scheme, the separator and the host sit in `w://host` + `rest`. */
  lemma LayoutHead(w: string, host: string, rest: string)
    ensures var u := (w + "://") + host + rest;
      var a := |w| + 3;
      && |u| == a + |host| + |rest|
      && SchemeLaid(u, w)
      && u[a..a + |host|] == host
      && u[a + |host|..] == rest
  {
  }

  /** What follows the host: an optional `:digits`, then the tail. */
  lemma LayoutRest(port: Option<string>, tail: string)
    requires port.Some? ==> port.value != ""
    requires tail == "" || tail[0] == '/'
    ensures var rest := PortText(port) + tail;
      var n := |PortText(port)|;
      && |rest| == n + |tail|
      && (0 < |rest| ==> (rest[0] == ':' && port.Some?) || (rest[0] == '/' && port.None?))
      && (port.Some? ==> n == 1 + |port.value| && rest[1..n] == port.value)
      && (n < |rest| ==> rest[n] == '/')
  {
    if port.Some? {
      assert PortText(port) + tail == [':'] + (port.value + tail);
    }
  }

  /** The scheme group takes `w`, and the guard keeps the `www.` group out. */
  lemma SchemeAndWwwOfLayout(u: string, w: string, host: string, q: UrlParts)
    requires IsSchemeWord(w) && HostSurvivesReparse(host)
    requires SchemeLaid(u, w) && HostLaid(u, |w| + 3, host)
    requires q.scheme == Some(w) && q.www == ""
    ensures SchemeGroup(u, q) && WwwGroup(u, q)
  {
    var a := |w| + 3;
    if |host| >= 4 {
      assert u[a + 3] == u[a..a + |host|][3];
    } else if |host| == 3 {
      assert u[a..a + 3] == host;
    }
  }

  /** A host laid out at `a` and followed by `:`, `/` or the end is a maximal host run. */
  lemma HostRun(u: string, a: nat, host: string)
    requires HostLaid(u, a, host)
    requires forall i :: 0 <= i < |host| ==> IsHostChar(host[i])
    ensures MaximalRun(u, a, a + |host|, IsHostChar)
  {
    forall i | a <= i < a + |host|
      ensures IsHostChar(u[i])
    {
      assert u[i] == u[a..a + |host|][i - a];
    }
  }

  /** Digits laid out after a colon at `c` and followed by `/` or the end form a maximal port run. */
  lemma DigitRun(u: string, c: nat, digits: string)
    requires digits != "" && forall i :: 0 <= i < |digits| ==> IsDigit(digits[i])
    requires PortLaid(u, c, Some(digits))
    ensures PortStartsAt(u, c) && MaximalRun(u, c + 1, c + 1 + |digits|, IsDigit)
  {
    assert u[c + 1] == u[c + 1..c + 1 + |digits|][0];
    forall i | c + 1 <= i < c + 1 + |digits|
      ensures IsDigit(u[i])
    {
      assert u[i] == u[c + 1..c + 1 + |digits|][i - c - 1];
    }
  }

  lemma HostAndPortOfLayout(u: string, q: UrlParts)
    requires HostLaid(u, HostStart(q), q.host) && PortLaid(u, HostEnd(q), q.port)
    requires forall i :: 0 <= i < |q.host| ==> IsHostChar(q.host[i])
    requires q.port.Some? ==> q.port.value != "" && forall i :: 0 <= i < |q.port.value| ==> IsDigit(q.port.value[i])
    ensures HostGroup(u, q) && PortGroup(u, q)
  {
    HostRun(u, HostStart(q), q.host);
    if q.port.Some? {
      DigitRun(u, HostEnd(q), q.port.value);
    }
  }

  /** A path group that starts right where the port (or the host) ends. */
  lemma PathAfterOrigin(u: string, q: UrlParts, tail: string, d: nat)
    requires PortEnd(q) == d && TailLaid(u, d, tail)
    requires tail == "" ==> q.path.None?
    requires tail != "" ==> q.path == Some(u[d + 1..RunEnd(u, d + 1, IsPathChar)])
    ensures PathGroup(u, q) && MatchLength(q) <= |u|
  {
  }

  /** A text laid out as a rebuilt origin is matched group by group as expected. */
  lemma ExpectedIsMatch(u: string, w: string, host: string, port: Option<string>, tail: string)
    requires Reparsable(w, host, port, tail) && Layout(u, w, host, port, tail)
    ensures IsRegexMatch(u, Expected(u, w, host, port, tail))
  {
    var q := Expected(u, w, host, port, tail);
    ExpectedLeading(u, w, host, port, q);
    ExpectedPath(u, w, host, port, tail);
  }

  /** The groups before the path, for any parts that carry the laid-out scheme, host and port. */
  lemma ExpectedLeading(u: string, w: string, host: string, port: Option<string>, q: UrlParts)
    requires q.scheme == Some(w) && q.www == "" && q.host == host && q.port == port
    requires IsSchemeWord(w) && HostSurvivesReparse(host)
    requires forall i :: 0 <= i < |host| ==> IsHostChar(host[i])
    requires port.Some? ==> port.value != "" && forall i :: 0 <= i < |port.value| ==> IsDigit(port.value[i])
    requires SchemeLaid(u, w) && HostLaid(u, |w| + 3, host) && PortLaid(u, |w| + 3 + |host|, port)
    ensures SchemeGroup(u, q) && WwwGroup(u, q) && HostGroup(u, q) && PortGroup(u, q)
  {
    assert HostStart(q) == |w| + 3;
    SchemeAndWwwOfLayout(u, w, host, q);
    HostAndPortOfLayout(u, q);
  }

  lemma ExpectedPath(u: string, w: string, host: string, port: Option<string>, tail: string)
    requires TailLaid(u, |w| + 3 + |host| + |PortText(port)|, tail)
    ensures var q := Expected(u, w, host, port, tail);
      PathGroup(u, q) && MatchLength(q) <= |u|
  {
    var q := Expected(u, w, host, port, tail);
    var d := |w| + 3 + |host| + |PortText(port)|;
    PortTextLength(port);
    assert PortEnd(q) == d;
    PathAfterOrigin(u, q, tail, d);
  }

  lemma PortTextLength(port: Option<string>)
    ensures |PortText(port)| == match port case None => 0 case Some(digits) => |digits| + 1
  {
  }

  /** Re-parsing an origin, optionally followed by a text that starts with `/`, captures the same parts. */
  lemma ReparseRebuilt(w: string, host: string, port: Option<string>, tail: string)
    requires Reparsable(w, host, port, tail)
    ensures var q := Parse(Rebuilt(w, host, port, tail));
      q.scheme == Some(w) && q.host == host && q.port == port
  {
    var u := Rebuilt(w, host, port, tail);
    RebuiltLayout(w, host, port, tail);
    ExpectedIsMatch(u, w, host, port, tail);
    ParseUnique(u, Expected(u, w, host, port, tail));
  }

  /**
    Re-parsing the base of `x`, optionally followed by a text that starts
    with `/`, captures the same scheme, host and port.
   */
  lemma ReparseOrigin(x: string, tail: string)
    requires Parse(x).scheme.Some? && HostSurvivesReparse(Parse(x).host)
    requires tail == "" || tail[0] == '/'
    ensures GetBaseUrl(GetBaseUrl(x) + tail) == GetBaseUrl(x)
  {
    var p := Parse(x);
    ParseIsRegexMatch(x);
    CapturedCharacters(x, p);
    var w := p.scheme.value;
    assert Origin(p) + tail == Rebuilt(w, p.host, p.port, tail);
    ReparseRebuilt(w, p.host, p.port, tail);
  }

  /** Under the guard, `getBaseUrl` is idempotent. */
  lemma BaseUrlIdempotent(x: string)
    requires Parse(x).scheme.Some? && HostSurvivesReparse(Parse(x).host)
    ensures GetBaseUrl(GetBaseUrl(x)) == GetBaseUrl(x)
  {
    ReparseOrigin(x, "");
    AppendEmpty(GetBaseUrl(x));
  }

  /** Under the guard, a path appended to the base is discarded again. */
  lemma BaseUrlDiscardsPath(x: string, suffix: string)
    requires Parse(x).scheme.Some? && HostSurvivesReparse(Parse(x).host)
    ensures GetBaseUrl(GetBaseUrl(x) + "/" + suffix) == GetBaseUrl(x)
  {
    var tail := "/" + suffix;
    assert tail[0] == '/';
    ReparseOrigin(x, tail);
    AppendAssoc(GetBaseUrl(x), "/", suffix);
  }

  lemma AppendEmpty(a: string)
    ensures a + "" == a
  {
  }

  lemma AppendAssoc(a: string, b: string, c: string)
    ensures a + b + c == a + (b + c)
  {
  }
}

module UrlExamples {
  import opened Wrappers
  import opened JsValues
  import opened Url
  import opened UrlProperties

  /** The example URL in the helper's own comments, as origin, slash and path. */
  const DocumentedOrigin: string := "https://" + "localhost:3000"
  const DocumentedPathText: string := "relative" + "/path" + "/index.html"
  const DocumentedUrl: string := DocumentedOrigin + "/" + DocumentedPathText

  const DocumentedParts: UrlParts := UrlParts(Some("https"), "", "localhost", Some("3000"), Some(DocumentedPathText))

  /** The example in the helper's own comments: the path is cut off, the port kept. */
  lemma DocumentedExample()
    ensures SplitUrl(DocumentedUrl)
      == [Some(DocumentedUrl), Some("https"), Some("localhost"), Some("3000"), Some("relative/path/index.html")]
    ensures GetBaseUrl(DocumentedUrl) == "https://localhost:3000"
  {
    DocumentedSplit();
    DocumentedBase();
  }

  lemma DocumentedSplit()
    ensures SplitUrl(DocumentedUrl)
      == [Some(DocumentedUrl), Some("https"), Some("localhost"), Some("3000"), Some("relative/path/index.html")]
  {
    DocumentedParse();
    DocumentedPathLiteral();
    assert DocumentedUrl[..|DocumentedUrl|] == DocumentedUrl;
  }

  lemma DocumentedPathLiteral()
    ensures DocumentedPathText == "relative/path/index.html"
  {
  }

  lemma DocumentedBase()
    ensures GetBaseUrl(DocumentedUrl) == "https://localhost:3000"
  {
    DocumentedParse();
    DocumentedOriginText();
  }

  lemma DocumentedOriginText()
    ensures Origin(DocumentedParts) == "https://localhost:3000"
  {
    assert Origin(DocumentedParts) == "https" + "://" + "localhost" + ":" + "3000";
  }

  lemma DocumentedParse()
    ensures Parse(DocumentedUrl) == DocumentedParts
    ensures MatchLength(DocumentedParts) == |DocumentedUrl|
  {
    DocumentedLeadingGroups();
    DocumentedPath();
    ParseUnique(DocumentedUrl, DocumentedParts);
  }

  lemma DocumentedLeadingGroups()
    ensures SchemeGroup(DocumentedUrl, DocumentedParts) && WwwGroup(DocumentedUrl, DocumentedParts)
    ensures HostGroup(DocumentedUrl, DocumentedParts) && PortGroup(DocumentedUrl, DocumentedParts)
  {
    DocumentedSchemeAndWww();
    DocumentedHostAndPort();
  }

  lemma DocumentedSchemeAndWww()
    ensures SchemeGroup(DocumentedUrl, DocumentedParts) && WwwGroup(DocumentedUrl, DocumentedParts)
  {
    var url := DocumentedUrl;
    assert url[..22] == DocumentedOrigin;
    assert url[..5] == "https";
  }

  lemma DocumentedHostAndPort()
    ensures HostGroup(DocumentedUrl, DocumentedParts) && PortGroup(DocumentedUrl, DocumentedParts)
  {
    var url := DocumentedUrl;
    assert url[..22] == DocumentedOrigin;
    assert url[8..17] == "localhost";
    assert url[18..22] == "3000";
  }

  lemma DocumentedPath()
    ensures PathGroup(DocumentedUrl, DocumentedParts) && MatchLength(DocumentedParts) == |DocumentedUrl|
  {
    DocumentedPathChars();
    SlashAndRest(DocumentedOrigin, DocumentedPathText);
    PathToEnd(DocumentedUrl, 22, DocumentedPathText);
  }

  /** The documented path contains no line terminator. */
  lemma DocumentedPathChars()
    ensures forall i :: 0 <= i < |DocumentedPathText| ==> IsPathChar(DocumentedPathText[i])
  {
    NoTerminators("relative", "/path");
    NoTerminators("relative" + "/path", "/index.html");
  }

  lemma SlashAndRest(a: string, b: string)
    ensures |a + "/" + b| == |a| + 1 + |b|
    ensures (a + "/" + b)[|a|] == '/' && (a + "/" + b)[|a| + 1..] == b
  {
    assert a + "/" + b == a + ("/" + b);
  }

  /** A slash at `d` followed by terminator-free text opens a path group that runs to the end. */
  lemma PathToEnd(url: string, d: nat, rest: string)
    requires d < |url| && url[d] == '/' && url[d + 1..] == rest
    requires forall i :: 0 <= i < |rest| ==> IsPathChar(rest[i])
    ensures PathStartsAt(url, d) && MaximalRun(url, d + 1, |url|, IsPathChar)
  {
    assert forall i :: d + 1 <= i < |url| ==> url[i] == rest[i - d - 1];
  }

  lemma NoTerminators(s: string, t: string)
    requires forall i :: 0 <= i < |s| ==> IsPathChar(s[i])
    requires forall i :: 0 <= i < |t| ==> IsPathChar(t[i])
    ensures forall i :: 0 <= i < |s + t| ==> IsPathChar((s + t)[i])
  {
  }

  /** The scheme match is case-sensitive: an upper-case scheme is read as a host. */
  lemma UpperCaseSchemeIsNotRecognised()
    ensures Parse("HTTP://example.com").scheme.None?
    ensures GetBaseUrl("HTTP://example.com") == "undefined://HTTP"
  {
    var url := "HTTP://example.com";
    var q := UrlParts(None, "", "HTTP", None, None);
    UpperCaseIsMatch();
    ParseUnique(url, q);
    assert Origin(q) == "undefined" + "://" + "HTTP";
  }

  lemma UpperCaseIsMatch()
    ensures IsRegexMatch("HTTP://example.com", UrlParts(None, "", "HTTP", None, None))
  {
    var url := "HTTP://example.com";
    var q := UrlParts(None, "", "HTTP", None, None);
    assert SchemeGroup(url, q) by {
      assert url[..4] == "HTTP";
    }
    assert HostGroup(url, q) by {
      assert url[0..4] == "HTTP";
    }
  }

  /**
    Without a recognised scheme the base begins with the literal text
    `undefined://`, and a second application collapses it to
    `undefined://undefined`: the guard of `BaseUrlIdempotent` cannot be
    dropped.
   */
  lemma UndefinedSchemeCollapses(x: string)
    requires Parse(x).scheme.None?
    ensures GetBaseUrl(GetBaseUrl(x)) == "undefined://undefined"
  {
    var p := Parse(x);
    OriginWithoutScheme(p);
    ReparseUndefined(p.host + PortText(p.port));
  }

  lemma OriginWithoutScheme(p: UrlParts)
    requires p.scheme.None?
    ensures Origin(p) == "undefined://" + (p.host + PortText(p.port))
  {
    assert "undefined" + "://" == "undefined://";
    assert Origin(p) == ("undefined" + "://") + p.host + PortText(p.port);
  }

  lemma ReparseUndefined(rest: string)
    ensures Parse("undefined://" + rest) == UrlParts(None, "", "undefined", None, None)
    ensures GetBaseUrl("undefined://" + rest) == "undefined://undefined"
  {
    var u := "undefined://" + rest;
    var q := UrlParts(None, "", "undefined", None, None);
    assert u[..12] == "undefined://";
    UndefinedPrefixIsMatch(u);
    ParseUnique(u, q);
    assert Origin(q) == "undefined" + "://" + "undefined";
  }

  /** Before `://` the text is all host; the colon opens no port, since a slash follows it. */
  lemma UndefinedPrefixIsMatch(u: string)
    requires 12 <= |u| && u[..12] == "undefined://"
    ensures IsRegexMatch(u, UrlParts(None, "", "undefined", None, None))
  {
    var q := UrlParts(None, "", "undefined", None, None);
    assert u[9] == u[..12][9] == ':';
    assert u[10] == u[..12][10] == '/';
    assert u[..9] == u[..12][..9] == "undefined";
    assert SchemeGroup(u, q);
    assert HostGroup(u, q) by {
      assert u[0..9] == u[..9];
      forall i | 0 <= i < 9
        ensures IsHostChar(u[i])
      {
        assert u[i] == u[..9][i];
      }
    }
  }

  /**
    A host that is exactly `www`, captured after a dropped `www.`, is read
    as a second `www` prefix once a port follows it: the base is not stable
    although its host does not itself start with `www` and one more character.
   */
  lemma WwwHostBeforePortIsNotStable()
    ensures Parse("http://www.www:80").host == "www"
    ensures GetBaseUrl("http://www.www:80") == "http://www:80"
    ensures GetBaseUrl("http://www:80") == "http://80"
    ensures !HostSurvivesReparse("www")
  {
    BaseOfWwwWwwPort();
    BaseOfWwwPort();
    assert "www"[0] == "www"[1] == "www"[2] == 'w';
  }

  lemma BaseOfWwwWwwPort()
    ensures Parse("http://www.www:80").host == "www"
    ensures GetBaseUrl("http://www.www:80") == "http://www:80"
  {
    ParseWwwWwwPort();
    OriginText("http", "www", Some("80"), "http://www:80");
  }

  lemma BaseOfWwwPort()
    ensures GetBaseUrl("http://www:80") == "http://80"
  {
    ParseWwwPort();
    OriginText("http", "80", None, "http://80");
  }

  /** The origin of parsed parts, spelled out as one literal. */
  lemma OriginText(w: string, host: string, port: Option<string>, text: string)
    requires text == w + "://" + host + PortText(port)
    ensures forall www, path :: Origin(UrlParts(Some(w), www, host, port, path)) == text
  {
  }

  lemma ParseWwwWwwPort()
    ensures Parse("http://www.www:80") == UrlParts(Some("http"), "www.", "www", Some("80"), None)
  {
    WwwWwwPortIsMatch();
    ParseUnique("http://www.www:80", UrlParts(Some("http"), "www.", "www", Some("80"), None));
  }

  lemma WwwWwwPortIsMatch()
    ensures IsRegexMatch("http://www.www:80", UrlParts(Some("http"), "www.", "www", Some("80"), None))
  {
    WwwWwwPortLeading();
    WwwWwwPortTrailing();
  }

  lemma WwwWwwPortLeading()
    ensures var p := UrlParts(Some("http"), "www.", "www", Some("80"), None);
      SchemeGroup("http://www.www:80", p) && WwwGroup("http://www.www:80", p)
  {
    var x := "http://www.www:80";
    assert x[..4] == "http";
    assert x[7..11] == "www.";
  }

  lemma WwwWwwPortTrailing()
    ensures var p := UrlParts(Some("http"), "www.", "www", Some("80"), None);
      HostGroup("http://www.www:80", p) && PortGroup("http://www.www:80", p) && PathGroup("http://www.www:80", p)
  {
    var x := "http://www.www:80";
    assert x[11..14] == "www";
    assert x[15..17] == "80";
  }

  lemma ParseWwwPort()
    ensures Parse("http://www:80") == UrlParts(Some("http"), "www:", "80", None, None)
  {
    WwwPortIsMatch();
    ParseUnique("http://www:80", UrlParts(Some("http"), "www:", "80", None, None));
  }

  lemma WwwPortIsMatch()
    ensures IsRegexMatch("http://www:80", UrlParts(Some("http"), "www:", "80", None, None))
  {
    var y := "http://www:80";
    var q := UrlParts(Some("http"), "www:", "80", None, None);
    assert SchemeGroup(y, q) by {
      assert y[..4] == "http";
    }
    assert WwwGroup(y, q) by {
      assert y[7..11] == "www:";
    }
    assert HostGroup(y, q) by {
      assert y[11..13] == "80";
    }
  }

  /** A bare `www` host is stable on its own but is swallowed once a path is appended. */
  lemma WwwHostBeforePathIsNotStable()
    ensures GetBaseUrl("http://www") == "http://www"
    ensures GetBaseUrl("http://www" + "/a") == "http://a"
  {
    BaseOfBareWww();
    BaseOfWwwPath();
  }

  lemma BaseOfBareWww()
    ensures GetBaseUrl("http://www") == "http://www"
  {
    ParseBareWww();
    OriginText("http", "www", None, "http://www");
  }

  lemma BaseOfWwwPath()
    ensures GetBaseUrl("http://www" + "/a") == "http://a"
  {
    ParseWwwPath();
    OriginText("http", "a", None, "http://a");
  }

  lemma ParseBareWww()
    ensures Parse("http://www") == UrlParts(Some("http"), "", "www", None, None)
  {
    BareWwwIsMatch();
    ParseUnique("http://www", UrlParts(Some("http"), "", "www", None, None));
  }

  lemma BareWwwIsMatch()
    ensures IsRegexMatch("http://www", UrlParts(Some("http"), "", "www", None, None))
  {
    var x := "http://www";
    var p := UrlParts(Some("http"), "", "www", None, None);
    assert SchemeGroup(x, p) by {
      assert x[..4] == "http";
    }
    assert HostGroup(x, p) by {
      assert x[7..10] == "www";
    }
  }

  lemma ParseWwwPath()
    ensures Parse("http://www" + "/a") == UrlParts(Some("http"), "www/", "a", None, None)
  {
    WwwPathIsMatch();
    ParseUnique("http://www" + "/a", UrlParts(Some("http"), "www/", "a", None, None));
  }

  lemma WwwPathIsMatch()
    ensures IsRegexMatch("http://www" + "/a", UrlParts(Some("http"), "www/", "a", None, None))
  {
    var y := "http://www" + "/a";
    var q := UrlParts(Some("http"), "www/", "a", None, None);
    assert SchemeGroup(y, q) by {
      assert y[..4] == "http";
    }
    assert WwwGroup(y, q) by {
      assert y[7..11] == "www/";
    }
    assert HostGroup(y, q) by {
      assert y[11..12] == "a";
    }
  }
}

=== FILE: wrappers.dfy ===
/** Failure-aware wrapper types shared by every module of the model. */
module Wrappers {

  /** `None` stands for a JavaScript `undefined` (or a missing property). */
  datatype Option<+T> = None | Some(value: T)

  /** The result of an operation that either yields a value or raises an error. */
  datatype Result<+R, +E> = Success(value: R) | Failure(error: E)
}
